=== FILE: README.md ===
# Shared-counter core of the concurrent-rendering state-library test bench

The repository compares React state-management libraries by wiring one small
counter through each of them and checking, in a browser, that the 50 subscriber
components never disagree ("tearing"). Almost all of it is glue. This Dafny project models
the small pure logic inside that glue:

- **`Common`** (`src/common.js`): the counter record, the reducer, the 50
  subscriber ids, and the tearing check. The check is modelled as a predicate over
  the displayed integers, plus a failure flag that is never cleared.
- **`Gated`**, **`MobxReactLite`**, **`Simplux`**: the "count per dummy" increment
  rule that three adapters write inline. Every increment bumps `dummy`, and `count`
  moves only when the new `dummy` is congruent to K − 1 modulo K. Also modelled:
  `doDouble` and the three store-changing buttons of the mobx-react-lite main component.
- **`Hash`** and **`ReactRouter`**: the two URL codecs. They keep `{dummy, count}`
  in the fragment (`#D,C`, section 3.5 of RFC 3986) and in the query string
  (`?dummy=D&count=C`, the application/x-www-form-urlencoded parser of section 5.1
  of the WHATWG URL Standard). Each handler decodes, reduces and re-encodes.
- **`ReadmeTable`**, **`ReadmeRaw`**, **`ReadmeUpdate`** (`update_readme.js`): the
  pure part of the README updater. It groups results six to a row, maps each status
  to an icon, renders HTML rows, selects and thins the raw log window, and replaces
  the first `<table>` and the first `<details>` region.
- **`Text`** and **`Wrappers`**: decimal rendering, `parseInt`, `split`/`join`, the
  literal-tag search the updater's lazy regexes perform, and an `Option` type. `None` stands for `undefined`/`null`/`NaN`.

The state is `{dummy: nat, count: nat}`, starting at `{0, 0}`. K, the "count per
dummy" constant, is a parameter with K ≥ 1. `src/common.js` defines
`initialState = { count: 0 }`, without `dummy`; the model assumes `dummy: 0` (what
that changes is listed under "Left out"). It also does not export `COUNT_PER_DUMMY`,
`incrementAction`, `doubleAction`, `selectCount` or `createApp`, which the adapters
import. So the model does not fix those actions: an action is a value with a type
string, and the handlers take it as a parameter.

Two consequences of the code as it stands:

- The adapters gate an increment of `count` on the new `dummy` being congruent to
  K − 1 (`src/mobx-react-lite/index.js:38`, `src/mobx-use-sub/index.js:32`,
  `src/simplux/index.js:22`). With K = 2, 51 increments from `{0, 0}` give a count of
  26 (`Gated.FiftyOneIncrementsWithKTwo`).
- The reducer in `src/common.js` handles only `'increment'`. Every other action type,
  `'double'` included, leaves the state unchanged.

## Model

| member | source | states |
|---|---|---|
| Common.InitialState | src/common.js:19 | No contract: the start state `{dummy: 0, count: 0}`. The source's `initialState` is `{ count: 0 }` with no `dummy`; the assumed `dummy: 0` and what it changes are under "Left out" (Common.InitialState). |
| Common.Reducer | src/common.js:19-28 | An undefined state starts from `initialState`. `'increment'` adds exactly one to `count` and keeps every other field. Every other action type returns the state unchanged. `count` never decreases. |
| Common.IncrementUndefinedState | src/common.js:19-24 | Reducing an undefined state with an increment gives count 1. |
| Common.RunCountsIncrements | src/common.js:21-28 | Dispatching any sequence of actions raises `count` by the number of increments in it and leaves `dummy` alone. |
| Common.RunAppend | src/common.js:21-28 | Dispatching `a` and then `b` gives the same state as dispatching `a + b`. |
| Common.RunMonotone | src/common.js:21-28 | Dispatching more actions never gives a smaller count. |
| Common.FiftyOneIncrements | __tests__/all_spec.js:35-46 | Fifty-one increments from the initial state give a count of 51. |
| Common.Ids | src/common.js:30 | The subscriber ids are exactly 0..49, in order. |
| Common.Every | src/common.js:37 | The `every` test holds iff every element equals the reference count. |
| Common.CheckTearing | src/common.js:32-41 | After one check the flag is set iff it was already set or one of the first 50 displayed counts differs from the reference count. |
| Common.FlagAfterIsSticky | src/common.js:37-40 | Across any sequence of checks the flag ends set iff it started set or some snapshot was torn. Once set, it stays set. |
| Gated.Increment | src/mobx-react-lite/index.js:36-41 | `dummy` rises by exactly one. `count` rises by one iff the new `dummy` mod K is K − 1, and is unchanged otherwise. `count` never falls and rises by at most one. With K = 1 every increment raises `count`. |
| Gated.StepCrossesMultiple | src/mobx-use-sub/index.js:32-34 | The gate fires on `d` exactly when `floor((d+1)/K)` exceeds `floor(d/K)`. |
| Gated.IncrementNClosedForm | src/mobx-use-sub/index.js:30-35 | After n increments, `dummy` has risen by n. `count` has risen by the number of multiples of K in `(dummy+1, dummy+n+1]`. |
| Gated.KIncrementsRaiseCountByOne | src/mobx-react-lite/index.js:64-67 | Any K consecutive increments, from any state, raise `count` by exactly one ("K clicks to increment one"). |
| Gated.IncrementsFromInitial | src/mobx-use-sub/index.js:28-36 | From `{0,0}`, n increments leave `dummy == n`. `count` is n when K = 1 and `floor((n+1)/K)` otherwise. |
| Gated.FiftyOneIncrementsWithKTwo | src/mobx-use-sub/index.js:31-34 | With K = 2, 51 increments from `{0,0}` leave `{dummy: 51, count: 26}`. |
| MobxReactLite.Double | src/mobx-react-lite/index.js:45-47 | `doDouble` sets `count` to twice its value and leaves `dummy` unchanged. |
| MobxReactLite.Click | src/mobx-react-lite/index.js:42-56 | No button that changes the shared store ever lowers `count` or `dummy`. |
| MobxReactLite.TransitionIncrementIsIncrement | src/mobx-react-lite/index.js:52-56 | The transition button changes the store exactly as the registered increment does. |
| MobxReactLite.ClicksMonotone | src/mobx-react-lite/index.js:36-50 | Across any sequence of clicks `count` never falls. `dummy` rises by the number of increment clicks. |
| Simplux.Increment | src/simplux/index.js:20-23 | `dummy` rises by one. `count` rises by at most one and never falls, and it rises iff the new `dummy` mod K is K − 1. |
| Simplux.AgreesWithGatedIncrement | src/simplux/index.js:20-23 | For every state and every K, the expression form gives the same state as the statement form of the other two adapters. |
| Text.NatToString | src/hash/index.js:12 | A rendered natural is a non-empty digit string with no leading zero. |
| Text.DigitsValueOfNatToString | src/hash/index.js:23-24 | Reading back the decimal rendering of n gives n. |
| Text.DigitRun | src/hash/index.js:23 | The digit run is the longest all-digit prefix: it is followed by a non-digit or by the end. |
| Text.ParseInt | src/hash/index.js:23-24 | `parseInt` gives NaN exactly when the input does not start with a digit. |
| Text.ParseIntStopsAtNonDigit | src/hash/index.js:23-24 | `parseInt` of digits followed by a non-digit reads the digits only. |
| Text.ParseIntOfNatToString | src/react-router/index.js:26-27 | `parseInt` of a rendered natural gives the natural back. |
| Text.Join | update_readme.js:66 | No contract of its own: `parts.join(sep)`. Its partner is `Text.SplitOfJoin`, which proves splitting inverts it. |
| Text.Split | src/hash/index.js:21 | `split` gives at least one piece. No piece holds the separator, and joining the pieces gives the input back. |
| Text.SplitCons | src/hash/index.js:21 | A separator-free prefix followed by the separator becomes the first piece, and the rest splits on its own. |
| Text.SplitTwoFields | src/hash/index.js:21 | Two comma-free fields followed by anything split into those two fields first. |
| Text.SplitOfJoin | src/hash/index.js:21 | Splitting undoes joining when no piece holds the separator. |
| Text.CharIndexAfterPrefix | src/react-router/index.js:21 | The first `=` of `name=value` is the one after the name when the name holds none. |
| Text.IndexOf | update_readme.js:63-66 | The literal-tag search of the lazy regexes `/<table>([\s\S]*?)<\/table>/` and `/<details>([\s\S]*?)<\/details>/` (first the opening tag, then the first closing tag after it) returns the first occurrence at or after the start, or none when there is no occurrence. |
| Text.IndexOfFinds | update_readme.js:63-66 | An occurrence with no earlier occurrence at or after the start is the one found. |
| Hash.CreateHash | src/hash/index.js:11-13 | The fragment body splits at commas into exactly the decimal `dummy` and the decimal `count`. |
| Hash.GetData | src/hash/index.js:15-19 | A fragment that is empty after its first character is dropped decodes to the initial state. |
| Hash.DropFirst | src/hash/index.js:16 | `slice(1)` is one shorter (empty stays empty) and holds the characters from the second on, in order. |
| Hash.FirstCharacterIgnored | src/hash/index.js:16 | The leading character, normally `#`, is dropped before parsing, whatever it is. |
| Hash.DecodeFields | src/hash/index.js:21-25 | The decoded state comes from the first two comma-separated fields. |
| Hash.RoundTrip | src/hash/index.js:11-26 | `getData('#' + createHash(s)) == s` for every state. |
| Hash.ExtraFieldsIgnored | src/hash/index.js:21 | Comma-separated fields after the second do not change the decoded state. |
| Hash.AfterAssignment | src/hash/index.js:54-62 | `window.location.hash = v` in both handlers: the fragment is `v` with a leading `#`, one character longer, and `slice(1)` of it gives `v` back. |
| Hash.OnAction | src/hash/index.js:50-64 | A handler writes a hash exactly when the current one decodes. Decoding the written hash gives `reducer(getData(oldHash), action)`. |
| Hash.ClicksFollowReducer | src/hash/index.js:28-64 | When the component re-renders on `hashchange` between clicks, so each click reads the fragment the previous one wrote, a run of clicks ends at the encoding of the reducer fold over the same actions. |
| ReactRouter.ParseParam | src/react-router/index.js:21 | A query sequence splits at its first `=` into a name without `=` and a value. A sequence without `=` is a name with an empty value. |
| ReactRouter.ParseSequences | src/react-router/index.js:21 | Every pair comes from a non-empty sequence. When no sequence is empty, pair k is `ParseParam` of sequence k, for every k. |
| ReactRouter.ParseSequencesAppend | src/react-router/index.js:21 | Parsing distributes over concatenation: pairs keep the order of their sequences, and empty sequences give none. |
| ReactRouter.Params | src/react-router/index.js:21 | `new URLSearchParams(search)`: no name or value holds `&`. |
| ReactRouter.Field | src/react-router/index.js:26-27 | A name no pair carries reads as NaN (`None`). A number read comes from the value of a pair with that name. |
| ReactRouter.Lookup | src/react-router/index.js:26-27 | `get` finds a value iff some pair has that name. The value found is that of the first such pair: no earlier pair has the name. |
| ReactRouter.CreateSearchParams | src/react-router/index.js:16-18 | The query parses to exactly the pairs `dummy` and `count`, in that order, with decimal values. |
| ReactRouter.GetData | src/react-router/index.js:20-24 | An empty search decodes to the initial state. |
| ReactRouter.ParamsOfTwoPairs | src/react-router/index.js:21 | `?n1=v1&n2=v2` parses to those two pairs when names hold no `=` or `&` and values hold no `&`. |
| ReactRouter.RoundTrip | src/react-router/index.js:16-29 | `getData({search: createSearchParams(s)}) == s` for every state. |
| ReactRouter.OrderIrrelevant | src/react-router/index.js:25-28 | Parameters are looked up by name, so `?count=C&dummy=D` decodes to the same state. |
| ReactRouter.OnAction | src/react-router/index.js:36-52 | A handler replaces the location exactly when the current search decodes. The new search decodes to `reducer(getData(location), action)`. |
| ReadmeTable.WrapParts | update_readme.js:23 | `wrap(c, t)` is `<t>`, then `c` unchanged, then `</t>`, and nothing else. |
| ReadmeTable.Check | update_readme.js:24 | The icon is `:x:` iff the status is `'failed'`, and `:white_check_mark:` for every other status. |
| ReadmeTable.Store | update_readme.js:32 | An array element assignment puts the cell at that index and keeps every other cell: the cells before it, and the cells after it when the index was inside the row. At the end of the row it appends. |
| ReadmeTable.Grouped | update_readme.js:29-33 | After the first ix steps of the loop, result j < ix sits at row ⌊j/6⌋, column j mod 6. Every row holds one to six cells, only the last may be short, and the rows read in order give the first ix results. |
| ReadmeTable.GroupResults | update_readme.js:29-33 | The result at index ix lands at row ⌊ix/6⌋, column ix mod 6. Every row holds one to six cells, only the last may be short, and the rows read in order give the results back. |
| ReadmeTable.FileCell | update_readme.js:30-32 | One `forEach` step: the cell lands at row ⌊ix/6⌋, column ix mod 6. A missing row is appended, and every other row is unchanged. |
| ReadmeTable.FileCellKeepsFiled | update_readme.js:30-32 | One step of the loop keeps all earlier cells in place and files the next one. |
| ReadmeTable.FiledStep | update_readme.js:30-32 | Filing result n − 1 into the rows holding the first n − 1 results gives the rows holding the first n. |
| ReadmeTable.ConcatAppend | update_readme.js:39 | Joining rendered lines distributes over concatenation. |
| ReadmeTable.ConcatAt | update_readme.js:39 | In the joined lines, line i comes after the lines before it and before the lines after it. |
| ReadmeTable.RowCellsInOrder | update_readme.js:39-40 | A row's `<td>` lines come one per cell, in column order. |
| ReadmeTable.Anchor | update_readme.js:4-20 | A library link starts with `<a href="` followed by the URL, ends with the name followed by `</a>`, is 15 characters longer than URL and name together, and is never the text "undefined". |
| ReadmeTable.LibraryOf | update_readme.js:3-21 | No contract: each of the 17 titles of the `libraries` literal maps to that entry's URL, name and note, and every other title maps to `None`. |
| ReadmeTable.LibraryLink | update_readme.js:3-21 | For titles that are not inherited `Object.prototype` keys: `libraries[title]` is "undefined" iff the title has no own entry. Otherwise it starts with the entry's `<a href="url">name</a>` link. |
| ReadmeTable.RenderRow | update_readme.js:36-41 | A rendered row starts with the tab before `<tr>`. |
| ReadmeTable.RenderRowCells | update_readme.js:37-40 | The row is the header line for the first cell's title, then each cell's status icon in a `<td>` line in column order, then `</tr>`. |
| ReadmeTable.RenderRowReadsFirstTitle | update_readme.js:38-40 | A row's rendering depends on the first cell's title and on the statuses only. |
| ReadmeTable.RowTexts | update_readme.js:36-41 | One rendered text per row, in row order. |
| ReadmeTable.RenderRows | update_readme.js:35-41 | The table body `sub` is empty iff there are no rows. |
| ReadmeTable.RenderRowsAt | update_readme.js:36-41 | Row k renders after the rows before it and before the rows after it. |
| ReadmeRaw.SplitLines | update_readme.js:57 | No line holds a line feed, and there is always at least one line. |
| ReadmeRaw.SplitLinesWithoutCarriageReturns | update_readme.js:57 | Without carriage returns the line split is the plain split at line feeds. |
| ReadmeRaw.SplitLinesPrefix | update_readme.js:57 | A line-feed-free prefix joins the first line of what follows it. |
| ReadmeRaw.SplitLinesSingle | update_readme.js:57 | A text without line feeds is one line. |
| ReadmeRaw.SplitLinesAtLineFeedReturn | update_readme.js:57 | `a\n\rb` splits into `a` and the lines of `b`: the carriage return after a line feed is part of the separator. |
| ReadmeRaw.SplitLinesAtLineFeed | update_readme.js:57 | `a\nb` splits into `a` and the lines of `b` when `b` does not start with a carriage return. |
| ReadmeRaw.IsMarked | update_readme.js:47 | No contract of its own: `/[✓✕]/` holds iff the line contains U+2713 or U+2715. |
| ReadmeRaw.NextMarked | update_readme.js:47 | Returns the first line at or after a position that carries ✓ or ✕. |
| ReadmeRaw.FindWindow | update_readme.js:44-50 | `last` ends at the final marked line (0 if none). `first` is six lines before the first marked line, unless that value is 0, in which case it is re-taken at the next marked line. |
| ReadmeRaw.EarlyMarkEmptiesWindow | update_readme.js:48-58 | With ten lines and the only mark on line 2, `first` is −4 and the sliced window is empty. |
| ReadmeRaw.MarkAtSixIsSkipped | update_readme.js:48 | With marks on lines 6 and 20 only, `first` ends at 14, past the mark on line 6. |
| ReadmeRaw.LastMarked | update_readme.js:49 | Returns the last marked line before a position, or −1 when there is none. |
| ReadmeRaw.IntendedWindow | update_readme.js:46-50 | The corrected window starts six lines before the first mark, clamped at 0, and ends at the last mark. Every marked line lies inside it. |
| ReadmeRaw.DropCarriageReturns | update_readme.js:52 | `/..\r/g` removals take characters away in threes. |
| ReadmeRaw.DropCarriageReturnsKeepsClean | update_readme.js:52 | A line without carriage returns is unchanged. |
| ReadmeRaw.DropCarriageReturnsKeepsFirst | update_readme.js:52 | A first character that does not start a match is kept. |
| ReadmeRaw.DropCarriageReturnsAfter | update_readme.js:52 | After a stretch without carriage returns, a match of two ordinary characters and a carriage return is removed and the stretch is kept. |
| ReadmeRaw.DropCarriageReturnsStep | update_readme.js:52 | `t + [x, y, '\r'] + u` becomes `t` followed by the cleaned `u`, when `t` holds no carriage return and x, y are not line terminators. |
| ReadmeRaw.DropEscapes | update_readme.js:52 | `/\[.../g` removals take characters away in fours. |
| ReadmeRaw.DropEscapesKeepsPlain | update_readme.js:52 | A stretch without `[` is kept unchanged before whatever follows it. |
| ReadmeRaw.DropEscapesKeepsClean | update_readme.js:52 | A line without `[` is unchanged. |
| ReadmeRaw.DropEscapesStep | update_readme.js:52 | `t + ['[', x, y, z] + u` becomes `t` followed by the cleaned `u`, when `t` holds no `[` and x, y, z are not line terminators. |
| ReadmeRaw.CleanLine | update_readme.js:52 | A line without carriage returns or `[` loses exactly its first five characters. |
| ReadmeRaw.CleanLineDropsEscape | update_readme.js:52 | A line without carriage returns loses each escape code, then its first five characters. |
| ReadmeRaw.SliceIndex | update_readme.js:58 | A `slice` index inside the array is kept and a negative one counts from the end. Below −n it clamps to 0, and past n it clamps to n. |
| ReadmeRaw.Slice | update_readme.js:58 | `slice(start, end)` is the elements between the normalised indices, in order. |
| ReadmeRaw.EveryThird | update_readme.js:59 | Exactly the elements at positions 0, 3, 6, … are kept, in order: ⌈n/3⌉ of them. |
| ReadmeRaw.CleanLines | update_readme.js:57 | Mapping `note` over the lines cleans each line in place and keeps the count. |
| ReadmeRaw.IntendedWindowInRange | update_readme.js:58 | The corrected window starts no later than it ends, and it ends on a line of the log. |
| ReadmeRaw.EveryThirdOfWindow | update_readme.js:58-59 | Filtering `slice(first, last + 1)` keeps the elements at first, first + 3, …, up to last: ⌊(last − first + 3)/3⌋ of them. |
| ReadmeRaw.RawOutput | update_readme.js:55-59 | Over the corrected window, the kept lines are the cleaned lines at window start, start + 3, …, none past the last marked line. |
| ReadmeRaw.RawOutputAsWritten | update_readme.js:44-59 | Over `note`'s window as written, the kept lines are every third line of `slice(first, last + 1)` of the cleaned lines. When the first mark is after line 6, or there is none, that window is the corrected one and the lines are those of `RawOutput`. |
| ReadmeRaw.WindowAsWrittenIsIntended | update_readme.js:46-50 | With no mark, or a first mark after line 6, `note`'s window equals the corrected window. |
| ReadmeRaw.WindowAsWrittenKeepsIntended | update_readme.js:44-59 | Under the same condition, the lines selected through `note`'s window are every third cleaned line of the corrected window. |
| ReadmeUpdate.FindRegion | update_readme.js:63-66 | The region starts at the first opening tag. Its closing tag is the first one that begins after the opening tag ends. |
| ReadmeUpdate.NoRegion | update_readme.js:63-66 | There is no region only when no opening tag exists, or none is followed by a closing tag. |
| ReadmeUpdate.FindRegionOf | update_readme.js:63 | An opening tag with none before it, followed by a closing tag with none between, is the region found. |
| ReadmeUpdate.ReplaceFirstRegion | update_readme.js:63-66 | Only the first region is replaced; the text before and after it is kept unchanged. Without a region the text is unchanged. |
| ReadmeUpdate.ReplaceRegionBetween | update_readme.js:63 | In `a <open>body<close> b`, with no earlier opening tag and no closing tag inside the body, the result is `a repl b`. |
| ReadmeUpdate.Block | update_readme.js:64-66 | A replacement block opens with its opening tag, closes with its closing tag, and holds its body unchanged just before the tail and the closing tag. |
| ReadmeUpdate.TableBlock | update_readme.js:64 | The table block opens with `<table>`, ends with `</table>`, and holds the rendered rows unchanged just before the final `\n</table>`. |
| ReadmeUpdate.DetailsBlock | update_readme.js:66 | The details block opens with `<details>`, ends with `</details>`, and holds the lines joined by line feeds just before the closing fence. |
| ReadmeUpdate.DetailsBlockKeepsLines | update_readme.js:66 | When no line holds a line feed, the joined text in the details block splits back into exactly the lines. |
| ReadmeUpdate.ReplaceBlocks | update_readme.js:62-66 | A README with neither a table region nor a details region is unchanged. |
| ReadmeUpdate.HeadingRow | update_readme.js:64 | No contract: the row is built from `Test` and the numbers 1 to 6 in `<th>` cells, one cell at a time (`HeadingsThrough`). HeadingRowSpelledOut ties it to the source's literal. |
| ReadmeUpdate.HeadingRowSpelledOut | update_readme.js:64 | The heading row is exactly the 80-character literal `<tr><th>Test</th><th>1</th><th>2</th><th>3</th><th>4</th><th>5</th><th>6</th></tr>` of the updater, proved cell by cell through HeadingsThroughOne to HeadingsThroughSix. |
| ReadmeUpdate.ResultsTable | update_readme.js:64 | The rendered rows stand unchanged just before the table's final `\n</table>`. |
| ReadmeUpdate.Update | update_readme.js:62-66 | The updater leaves a README with neither region unchanged. |
| ReadmeUpdate.ReplaceTwoRegions | update_readme.js:63-66 | Replacing the first region of one kind and then of another replaces exactly those two and keeps the text around them. |
| ReadmeUpdate.UpdateKeepsOutside | update_readme.js:62-66 | In a README shaped `a <table>… c <details>… e`, only the two regions are replaced, by the new table block and details block. Everything around them is kept. |
| ReadmeUpdate.UpdateReplacesRegions | update_readme.js:62-66 | On such a README the updater writes `a`, the results table under the heading row, `c`, the `Raw Output` block, and `e`. |

## Findings

| source | as written | input that shows it | evidently intended | confidence | as-written member | corrected member |
|---|---|---|---|---|---|---|
| update_readme.js:48 | `if (!first) first = ix - 6;` can leave `first` negative, and `slice` then counts it from the end | ten log lines with the only ✓ on line 2: `first = -4`, `slice(-4, 3)` starts at line 6 and the raw block is empty | the window starts at `max(0, firstMark - 6)` | medium, not executed | ReadmeRaw.EarlyMarkEmptiesWindow | ReadmeRaw.IntendedWindow |
| update_readme.js:48 | `!first` reads a `first` of 0 as unset | marks on lines 6 and 20 only: `first` becomes 0 at line 6, then 14 at line 20, so line 6 falls outside the window | `first` is fixed at the first mark | medium, not executed | ReadmeRaw.MarkAtSixIsSkipped | ReadmeRaw.IntendedWindow |

`ReadmeRaw.FindWindow` and `ReadmeRaw.RawOutputAsWritten` model the `first`/`last`
bookkeeping and the selection as written. `ReadmeRaw.RawOutput` cuts the log with the
corrected `ReadmeRaw.IntendedWindow`.

## Left out

- React components, hooks, context providers, `React.memo`, transitions and pending state, and render order. These are scheduling and UI concerns of the host framework. The transition path is modelled only by its effect on the store.
- The third-party stores (redux, mobx, recoil, jotai, zustand, effector, rxjs, apollo, react-query, valtio, …) and every adapter outside the six modelled files. They wrap libraries whose code is not part of this model.
- `syncBlock`/`fib` in `src/common.js`. They only burn time.
- The DOM reads in `useCheckTearing`, `useRegisterClickHandler`, and the `document.title` mechanism. The check is a predicate over the displayed integers with a boolean flag. Reading a missing `.count` element would throw, so `CheckTearing` requires 50 displayed values.
- Common.CheckTearing: `Number(innerHTML)` is taken as an integer already. A non-numeric text, which would give NaN and always mismatch, is not modelled.
- The mobx-react-lite main component calls `useCheckTearing()` without the count. With the `useCheckTearing(count)` of `src/common.js`, that compares with `undefined`. This mismatch is not modelled.
- The local `useReducer` counter of the mobx-react-lite main component. It runs the common reducer, which `Common` models.
- `src/mobx/index.js`, which calls `reducer(incrementAction)` and `reducer(doubleAction)` with a single argument (`src/mobx/index.js:25`, `:32`). That passes the action as the state and no action, so the common reducer would throw on reading `action.type` (`src/common.js:22`). Also left out are the per-component mismatch checks in the zustand and reactive-react-redux adapters. Those checks depend on render order and module-level state.
- `selectCount`, `createApp`, `COUNT_PER_DUMMY`, `incrementAction` and `doubleAction` are not part of this model. The adapters import them, but `src/common.js` does not define them.
- Text.ParseInt: leading white space, signs, and `undefined`/`null` arguments other than a missing field are not modelled. The input is unsigned. A missing field, or one not starting with a digit, reads as NaN (`None`).
- Hash.GetData: a field that reads as NaN makes the whole decode `None`. The source instead returns a record holding NaN, and the handlers then write `NaN` into the URL. Hash.OnAction and ReactRouter.OnAction return `None` in that case.
- ReactRouter.GetData: percent-decoding and `+`-to-space in `URLSearchParams` are not modelled. Digit strings and the two field names never need them.
- Text.NatToString: JavaScript numbers above 2^53 lose precision and from 10^21 print in exponent notation. Naturals here are unbounded and always print in full decimal.
- Hash.AfterAssignment: the browser's percent-encoding of fragment characters is not modelled. A digits-and-comma body is not changed by it.
- ReadmeUpdate.ReplaceFirstRegion: the replacement text is inserted literally. `String.prototype.replace` would expand `$&`, `$1`, `$$` and similar patterns inside it.
- ReadmeTable.GroupResults: the test-result JSON is taken as a list of `{status, title}` cells, already mapped from `assertionResults`. JSON parsing is not modelled.
- File reads and writes and `console.log` in `update_readme.js`. The model takes and returns strings.
- The Puppeteer/Jest driver, the webpack configuration, and the dynamic `require` in `src/index.js`.
- ReadmeRaw.RawOutput: selects over the corrected window, not `note`'s window as written. `ReadmeRaw.RawOutputAsWritten` models the written selection and agrees with `RawOutput` only when the first mark is after line 6 or there is none.
- Hash.ClicksFollowReducer: assumes a re-render between clicks, so each click reads the fragment the previous click wrote. Two clicks handled before the `hashchange` re-render both read the older hash and write the same value. That interleaving is not modelled.
- ReadmeRaw.CleanLine: JavaScript strings are UTF-16 code units, but Dafny characters are Unicode scalar values. `substr(5)` and each `.` in `/..\r/g` and `/\[.../g` count code units in the source and characters here. For `"😀\r"` the source removes the whole line, since the two surrogates match `..`, but the model keeps the emoji. Text outside the Basic Multilingual Plane is therefore not modelled faithfully.
- Hash.GetData: `hash.slice(1)` drops one UTF-16 code unit, and the model drops one character. They differ only when the first character is outside the Basic Multilingual Plane, where the source leaves a lone surrogate behind.
- ReadmeRaw.DropCarriageReturns: the contract states only how many characters are removed. Which characters go is stated by `DropCarriageReturnsKeepsClean`, `DropCarriageReturnsKeepsFirst` and `DropCarriageReturnsStep`, for lines of the shapes they name.
- ReadmeRaw.DropEscapes: the contract states only how many characters are removed. Which characters go is stated by `DropEscapesKeepsPlain`, `DropEscapesKeepsClean` and `DropEscapesStep`, for lines of the shapes they name.
- ReadmeRaw.SplitLines: the contract states that every line is free of line feeds and that there is at least one line. The separators are stated by `SplitLinesAtLineFeedReturn`, `SplitLinesAtLineFeed`, `SplitLinesPrefix` and `SplitLinesSingle`.
- Common.InitialState: the model starts from `{dummy: 0, count: 0}`, but `src/common.js:19` exports `initialState = { count: 0 }`, with no `dummy`, just as it lacks K and the actions the adapters import. The codecs return that object for an empty fragment or search (`src/hash/index.js:17-18`, `src/react-router/index.js:22-23`), and the gated stores start from it. With the missing `dummy`, the first hash click writes `#undefined,1` and later clicks `#NaN,n`. React Router writes `?dummy=undefined&count=1`. `store.dummy += 1` makes `dummy` NaN, so the gate never fires and `count` never rises in the gated adapters. None of this is modelled: the model's `Hash.OnAction("", increment)` writes `#0,1`, and `Gated.IncrementsFromInitial` raises `count` to ⌊(n+1)/K⌋.
- ReadmeTable.LibraryLink: only own keys of `libraries` are modelled. For keys inherited from `Object.prototype` the source renders the inherited value: `constructor` and `toString` give the function's source text, and `__proto__` gives `[object Object]`. `LibraryOf` returns `None` for them, so the model renders "undefined".
- Text.IndexOf: the regex engine itself is not modelled. The two regexes hold no special characters outside their lazy group, so each matches its opening tag at its first occurrence and then the first closing tag after it, which is what the model searches for. The updater only searches for non-empty tags; for an empty pattern the model finds the start when it lies within the text and nothing past it.

=== FILE: common.dfy ===
/** The shared counter of `src/common.js`: its state record, the reducer every
    adapter dispatches through, the 50 subscriber ids and the tearing check that
    compares what the subscribers display against the authoritative count. */
module Common {
  import opened Wrappers

  /** The counter record `{dummy, count}`. */
  datatype CounterState = CounterState(dummy: nat, count: nat)

  /** A dispatched action; only its `type` string matters to the reducer. */
  datatype Action = Action(actionType: string)

  const IncrementType: string := "increment"

  const InitialState: CounterState := CounterState(0, 0)

  predicate IsIncrement(a: Action) {
    a.actionType == IncrementType
  }

  /** `reducer(state = initialState, action)`; `None` stands for an undefined state. */
  function Reducer(state: Option<CounterState>, action: Action): (r: CounterState)
    ensures var s := state.GetOr(InitialState);
      && r.dummy == s.dummy
      && s.count <= r.count
      && (IsIncrement(action) ==> r.count == s.count + 1)
      && (!IsIncrement(action) ==> r == s)
  {
    var s := if state.Some? then state.value else InitialState;
    if IsIncrement(action) then s.(count := s.count + 1) else s
  }

  /** Reducing an undefined state starts from the initial state. */
  lemma IncrementUndefinedState()
    ensures Reducer(None, Action(IncrementType)).count == 1
  {
  }

  /** The state after dispatching `actions` in order. */
  function Run(s: CounterState, actions: seq<Action>): CounterState
    decreases |actions|
  {
    if |actions| == 0 then s else Run(Reducer(Some(s), actions[0]), actions[1..])
  }

  /** How many of `actions` are increments. */
  function CountIncrements(actions: seq<Action>): nat {
    if |actions| == 0 then 0
    else (if IsIncrement(actions[0]) then 1 else 0) + CountIncrements(actions[1..])
  }

  /** Dispatching a sequence raises `count` by the number of increments in it and
      keeps every other field. */
  lemma {:induction false} RunCountsIncrements(s: CounterState, actions: seq<Action>)
    ensures Run(s, actions).count == s.count + CountIncrements(actions)
    ensures Run(s, actions).dummy == s.dummy
    decreases |actions|
  {
    if |actions| > 0 {
      RunCountsIncrements(Reducer(Some(s), actions[0]), actions[1..]);
    }
  }

  /** Dispatching `a` then `b` is dispatching `a + b`. */
  lemma {:induction false} RunAppend(s: CounterState, a: seq<Action>, b: seq<Action>)
    ensures Run(s, a + b) == Run(Run(s, a), b)
    decreases |a|
  {
    if |a| > 0 {
      assert (a + b)[0] == a[0];
      assert (a + b)[1..] == a[1..] + b;
      RunAppend(Reducer(Some(s), a[0]), a[1..], b);
    } else {
      assert a + b == b;
    }
  }

  /** `count` never decreases: dispatching more actions never yields a smaller count. */
  lemma RunMonotone(s: CounterState, a: seq<Action>, b: seq<Action>)
    ensures Run(s, a).count <= Run(s, a + b).count
  {
    RunAppend(s, a, b);
    RunCountsIncrements(Run(s, a), b);
  }

  lemma {:induction false} CountIncrementsOfRepeat(n: nat)
    ensures CountIncrements(seq(n, _ => Action(IncrementType))) == n
  {
    if n > 0 {
      var acts := seq(n, _ => Action(IncrementType));
      assert acts[1..] == seq(n - 1, _ => Action(IncrementType));
      CountIncrementsOfRepeat(n - 1);
    }
  }

  /** Fifty clicks and one more on the increment button show 51. */
  lemma FiftyOneIncrements()
    ensures Run(InitialState, seq(51, _ => Action(IncrementType))).count == 51
  {
    RunCountsIncrements(InitialState, seq(51, _ => Action(IncrementType)));
    CountIncrementsOfRepeat(51);
  }

  /** The ids of the subscriber components: `[...Array(50).keys()]`. */
  function Ids(): (ids: seq<nat>)
    ensures |ids| == 50
    ensures forall i :: 0 <= i < |ids| ==> ids[i] == i
  {
    seq(50, i => i)
  }

  /** Some subscriber among the first 50 displays a value other than `count`. */
  predicate Torn(displayed: seq<int>, count: int)
    requires |displayed| >= |Ids()|
  {
    exists i :: 0 <= i < |Ids()| && displayed[i] != count
  }

  /** `counts.every(c => c === count)`. */
  method Every(counts: seq<int>, count: int) returns (all: bool)
    ensures all <==> forall i :: 0 <= i < |counts| ==> counts[i] == count
  {
    var i := 0;
    while i < |counts|
      invariant 0 <= i <= |counts|
      invariant forall j :: 0 <= j < i ==> counts[j] == count
    {
      if counts[i] != count {
        return false;
      }
      i := i + 1;
    }
    return true;
  }

  /** One run of the tearing check: read the 50 displayed counts in id order and set
      the failure flag when one differs from `count`; the flag is never cleared. */
  method CheckTearing(displayed: seq<int>, count: int, failed: bool) returns (failedAfter: bool)
    requires |displayed| >= |Ids()|
    ensures failedAfter <==> failed || Torn(displayed, count)
  {
    var ids := Ids();
    var counts := seq(|ids|, k requires 0 <= k < |ids| => displayed[ids[k]]);
    assert forall k :: 0 <= k < |counts| ==> counts[k] == displayed[k];
    var all := Every(counts, count);
    failedAfter := failed;
    if !all {
      failedAfter := true;
    }
  }

  /** What one subscriber-read sees: the displayed values and the authoritative count. */
  datatype Snapshot = Snapshot(displayed: seq<int>, count: int)

  predicate Readable(history: seq<Snapshot>) {
    forall k :: 0 <= k < |history| ==> |history[k].displayed| >= |Ids()|
  }

  /** The failure flag after the tearing check has run on every snapshot in order. */
  function FlagAfter(history: seq<Snapshot>, failed: bool): bool
    requires Readable(history)
  {
    if |history| == 0 then failed
    else FlagAfter(history[1..], failed || Torn(history[0].displayed, history[0].count))
  }

  /** The flag ends set exactly when it started set or some snapshot was torn. */
  lemma {:induction false} FlagAfterIsSticky(history: seq<Snapshot>, failed: bool)
    requires Readable(history)
    ensures FlagAfter(history, failed) <==>
      failed || exists k :: 0 <= k < |history| && Torn(history[k].displayed, history[k].count)
  {
    if |history| > 0 {
      var h0 := history[0];
      FlagAfterIsSticky(history[1..], failed || Torn(h0.displayed, h0.count));
      if exists k :: 0 <= k < |history| && Torn(history[k].displayed, history[k].count) {
        var k :| 0 <= k < |history| && Torn(history[k].displayed, history[k].count);
        if k > 0 {
          assert history[1..][k - 1] == history[k];
        }
      }
      forall k | 0 <= k < |history| - 1 && Torn(history[1..][k].displayed, history[1..][k].count)
        ensures Torn(history[k + 1].displayed, history[k + 1].count)
      {
        assert history[1..][k] == history[k + 1];
      }
    }
  }
}

=== FILE: gated.dfy ===
/** The gated increment written inline, statement for statement the same, in the
    mobx-react-lite and mobx-use-sub adapters: every call bumps `dummy`, and `count`
    follows only when the new `dummy` is congruent to K - 1 modulo K, where K is the
    "count per dummy" constant (a parameter here, at least 1). */
module Gated {
  import opened Common

  /** `store.dummy += 1; if (store.dummy % K === K - 1) store.count += 1;` */
  function Increment(s: CounterState, k: nat): (r: CounterState)
    requires 1 <= k
    ensures r.dummy == s.dummy + 1
    ensures r.count == s.count + 1 <==> r.dummy % k == k - 1
    ensures r.count == s.count <==> r.dummy % k != k - 1
    ensures s.count <= r.count <= s.count + 1
    ensures k == 1 ==> r.count == s.count + 1
  {
    var dummy := s.dummy + 1;
    if dummy % k == k - 1 then CounterState(dummy, s.count + 1) else CounterState(dummy, s.count)
  }

  /** The state after `n` increments. */
  function IncrementN(s: CounterState, k: nat, n: nat): CounterState
    requires 1 <= k
  {
    if n == 0 then s else Increment(IncrementN(s, k, n - 1), k)
  }

  /** Quotient and remainder are determined by `a == q * k + r` with `0 <= r < k`. */
  lemma DivModUnique(a: int, k: int, q: int, r: int)
    requires 0 < k && 0 <= r < k && a == q * k + r
    ensures a / k == q && a % k == r
  {
    var q', r' := a / k, a % k;
    var d := q - q';
    assert d * k == r' - r by {
      assert q * k == (q' + d) * k == q' * k + d * k;
    }
    MultipleInsideOpenInterval(d, k);
  }

  /** The only multiple of `k` strictly between `-k` and `k` is zero. */
  lemma MultipleInsideOpenInterval(d: int, k: int)
    requires 1 <= k
    ensures -k < d * k < k ==> d == 0
  {
    if d >= 1 {
      assert d * k == (d - 1) * k + k;
      assert 0 <= (d - 1) * k;
    } else if d <= -1 {
      assert d * k == (d + 1) * k - k;
      assert (d + 1) * k <= 0;
    }
  }

  /** Moving from `d` to `d + 1` crosses a multiple of `k` exactly when `d` is congruent to k - 1. */
  lemma StepCrossesMultiple(d: nat, k: nat)
    requires 1 <= k
    ensures (d + 1) / k - d / k == if d % k == k - 1 then 1 else 0
  {
    var q, r := d / k, d % k;
    if r == k - 1 {
      DivModUnique(d + 1, k, q + 1, 0);
    } else {
      DivModUnique(d + 1, k, q, r + 1);
    }
  }

  /** Closed form: after `n` increments `dummy` has risen by `n` and `count` by the
      number of multiples of `k` in `(dummy + 1, dummy + n + 1]`. */
  lemma {:induction false} IncrementNClosedForm(s: CounterState, k: nat, n: nat)
    requires 1 <= k
    ensures IncrementN(s, k, n).dummy == s.dummy + n
    ensures IncrementN(s, k, n).count == s.count + (s.dummy + n + 1) / k - (s.dummy + 1) / k
  {
    if n > 0 {
      IncrementNClosedForm(s, k, n - 1);
      StepCrossesMultiple(s.dummy + n, k);
    }
  }

  /** Any K consecutive increments raise `count` by exactly one ("K clicks to
      increment one"), from any state. */
  lemma KIncrementsRaiseCountByOne(s: CounterState, k: nat)
    requires 1 <= k
    ensures IncrementN(s, k, k).count == s.count + 1
    ensures IncrementN(s, k, k).dummy == s.dummy + k
  {
    IncrementNClosedForm(s, k, k);
    DivModUnique(s.dummy + 1 + k, k, (s.dummy + 1) / k + 1, (s.dummy + 1) % k);
  }

  /** From `{dummy: 0, count: 0}`, `n` increments leave `dummy == n` and a count of
      `n` when K is 1 and of floor((n + 1) / K) otherwise. */
  lemma IncrementsFromInitial(k: nat, n: nat)
    requires 1 <= k
    ensures IncrementN(InitialState, k, n).dummy == n
    ensures IncrementN(InitialState, k, n).count == if k == 1 then n else (n + 1) / k
  {
    IncrementNClosedForm(InitialState, k, n);
    if k > 1 {
      DivModUnique(1, k, 0, 1);
    }
  }

  /** With K = 2, fifty-one clicks leave a count of 26. */
  lemma FiftyOneIncrementsWithKTwo()
    ensures IncrementN(InitialState, 2, 51) == CounterState(51, 26)
  {
    IncrementsFromInitial(2, 51);
  }
}

=== FILE: hash.dfy ===
/** The URL-fragment adapter: the counter state lives in `location.hash` as
    `#D,C` (the fragment component of section 3.5 of RFC 3986), and the increment
    and double handlers decode the current hash, reduce, and assign the encoding. */
module Hash {
  import opened Wrappers
  import opened Text
  import opened Common

  /** `createHash(state)`: decimal `dummy`, a comma, decimal `count`. */
  function CreateHash(s: CounterState): (h: string)
    ensures Split(h, ',') == [NatToString(s.dummy), NatToString(s.count)]
  {
    var d, c := NatToString(s.dummy), NatToString(s.count);
    assert d + [','] + c == Join([d, c], ',');
    SplitOfJoin([d, c], ',');
    d + [','] + c
  }

  /** `hash.slice(1)`: everything after the first character. */
  function DropFirst(hash: string): (r: string)
    ensures |r| == if |hash| == 0 then 0 else |hash| - 1
    ensures forall i :: 0 <= i < |r| ==> r[i] == hash[i + 1]
  {
    if |hash| == 0 then "" else hash[1..]
  }

  /** `getData(hash)`: the initial state for an empty fragment, otherwise the first two
      comma-separated fields read by `parseInt`; `None` when either reads as NaN. */
  function GetData(hash: string): (r: Option<CounterState>)
    ensures |hash| <= 1 ==> r == Some(InitialState)
  {
    var body := DropFirst(hash);
    if body == "" then Some(InitialState)
    else
      var fields := Split(body, ',');
      var dummy := ParseInt(fields[0]);
      var count := if |fields| >= 2 then ParseInt(fields[1]) else None;
      if dummy.Some? && count.Some? then Some(CounterState(dummy.value, count.value)) else None
  }

  /** The first character of the hash is dropped whatever it is. */
  lemma FirstCharacterIgnored(c: char, body: string)
    ensures GetData([c] + body) == GetData(['#'] + body)
  {
    assert ([c] + body)[1..] == body == (['#'] + body)[1..];
  }

  /** The fragment decodes from its first two comma-separated fields alone, whatever
      its first character is. */
  lemma DecodeFields(s: CounterState, hash: string)
    requires 1 <= |hash|
    requires |Split(hash[1..], ',')| >= 2
    requires Split(hash[1..], ',')[0] == NatToString(s.dummy)
    requires Split(hash[1..], ',')[1] == NatToString(s.count)
    ensures GetData(hash) == Some(s)
  {
    assert hash[1..] != "" by {
      assert Join(Split(hash[1..], ','), ',') == hash[1..];
    }
    ParseIntOfNatToString(s.dummy);
    ParseIntOfNatToString(s.count);
  }

  /** Writing a state into the fragment and reading it back gives the state. */
  lemma RoundTrip(s: CounterState)
    ensures GetData("#" + CreateHash(s)) == Some(s)
  {
    var hash := "#" + CreateHash(s);
    assert hash[1..] == CreateHash(s);
    DecodeFields(s, hash);
  }

  /** Comma-separated fields after the second do not change the decoded state. */
  lemma ExtraFieldsIgnored(s: CounterState, tail: string)
    ensures GetData("#" + CreateHash(s) + "," + tail) == Some(s)
  {
    var d, c := NatToString(s.dummy), NatToString(s.count);
    var hash := "#" + CreateHash(s) + "," + tail;
    assert hash[1..] == d + [','] + c + [','] + tail;
    SplitTwoFields(d, c, tail, ',');
    DecodeFields(s, hash);
  }

  /** The fragment after an assignment `location.hash = v` with a non-empty `v`
      that does not start with `#`: a `#` is put in front, and reading the fragment
      back with `hash.slice(1)` gives `v` again. */
  function AfterAssignment(v: string): (r: string)
    ensures |r| == |v| + 1 && r[0] == '#'
    ensures DropFirst(r) == v
  {
    "#" + v
  }

  /** The increment and double handlers: `location.hash = createHash(reducer(getData(hash), action))`;
      `None` when the current hash does not decode. Decoding the new hash gives the
      reducer's result on the old one. */
  function OnAction(hash: string, action: Action): (r: Option<string>)
    ensures r.Some? <==> GetData(hash).Some?
    ensures r.Some? ==> GetData(AfterAssignment(r.value)) == Some(Reducer(GetData(hash), action))
  {
    match GetData(hash)
    case None => None
    case Some(data) =>
      var next := Reducer(Some(data), action);
      RoundTrip(next);
      Some(CreateHash(next))
  }

  /** Successive clicks through the fragment behave like dispatching to the reducer.
      This takes every click to read the fragment the previous click wrote: the
      component re-renders on `hashchange` between clicks, so the hash `useHash`
      captured is the current one. Two clicks inside one render both read the older
      hash; that interleaving is not part of this lemma. */
  lemma {:induction false} ClicksFollowReducer(s: CounterState, actions: seq<Action>)
    ensures HashAfter("#" + CreateHash(s), actions) == Some("#" + CreateHash(Run(s, actions)))
    decreases |actions|
  {
    RoundTrip(s);
    if |actions| > 0 {
      var next := Reducer(Some(s), actions[0]);
      assert OnAction("#" + CreateHash(s), actions[0]) == Some(CreateHash(next));
      ClicksFollowReducer(next, actions[1..]);
    }
  }

  /** The fragment after each action's handler has run in turn; `None` once one fails.
      Each handler reads the fragment its predecessor wrote, as it does when the
      `hashchange` listener re-renders the component between clicks. */
  function HashAfter(hash: string, actions: seq<Action>): Option<string>
    decreases |actions|
  {
    if |actions| == 0 then Some(hash)
    else match OnAction(hash, actions[0])
      case None => None
      case Some(v) => HashAfter(AfterAssignment(v), actions[1..])
  }
}

=== FILE: mobx_react_lite.dfy ===
/** The shared store operations of the mobx-react-lite adapter's main component:
    the gated increment (registered on the increment buttons and also wrapped in a
    transition) and `doDouble`. */
module MobxReactLite {
  import opened Common
  import Gated

  /** `doDouble`: `store.count *= 2`. */
  function Double(s: CounterState): (r: CounterState)
    ensures r.count == 2 * s.count
    ensures r.dummy == s.dummy
    ensures s.count <= r.count
  {
    s.(count := s.count * 2)
  }

  /** The buttons that change the shared store. */
  datatype Button =
    | Registered           // the increment dispatcher registered on the increment buttons
    | NormalDouble         // "Double shared count normally"
    | TransitionIncrement  // "Increment shared count in transition"

  /** The store after one click; a transition only defers when the change is
      rendered, so its effect on the store is that of the plain increment. */
  function Click(b: Button, s: CounterState, k: nat): (r: CounterState)
    requires 1 <= k
    ensures s.dummy <= r.dummy && s.count <= r.count
  {
    match b
    case Registered => Gated.Increment(s, k)
    case NormalDouble => Double(s)
    case TransitionIncrement => Gated.Increment(s, k)
  }

  /** The transition button changes the store exactly as the registered increment does. */
  lemma TransitionIncrementIsIncrement(s: CounterState, k: nat)
    requires 1 <= k
    ensures Click(TransitionIncrement, s, k) == Click(Registered, s, k)
    ensures Click(TransitionIncrement, s, k).dummy == s.dummy + 1
  {
  }

  /** The store after a sequence of clicks. */
  function Clicks(bs: seq<Button>, s: CounterState, k: nat): CounterState
    requires 1 <= k
    decreases |bs|
  {
    if |bs| == 0 then s else Clicks(bs[1..], Click(bs[0], s, k), k)
  }

  /** How many of the clicks bump `dummy`. */
  function IncrementClicks(bs: seq<Button>): nat {
    if |bs| == 0 then 0
    else (if bs[0] == NormalDouble then 0 else 1) + IncrementClicks(bs[1..])
  }

  /** Across any sequence of clicks neither `count` nor `dummy` decreases, and
      `dummy` rises by the number of increment clicks. */
  lemma {:induction false} ClicksMonotone(bs: seq<Button>, s: CounterState, k: nat)
    requires 1 <= k
    ensures s.count <= Clicks(bs, s, k).count
    ensures Clicks(bs, s, k).dummy == s.dummy + IncrementClicks(bs)
    decreases |bs|
  {
    if |bs| > 0 {
      ClicksMonotone(bs[1..], Click(bs[0], s, k), k);
    }
  }
}

=== FILE: react_router.dfy ===
/** The react-router adapter: the counter state lives in the query string as
    `?dummy=D&count=C`, read through `URLSearchParams` (the
    application/x-www-form-urlencoded parser of section 5 of the WHATWG URL
    Standard); the increment and double handlers decode the current search,
    reduce, and replace the location with the encoding. */
module ReactRouter {
  import opened Wrappers
  import opened Text
  import opened Common

  /** One name/value pair of a query string. */
  datatype Param = Param(name: string, value: string)

  /** A non-empty `&`-separated sequence split at its first `=`; without one the
      whole sequence is the name and the value is empty. */
  function ParseParam(sequence: string): (p: Param)
    ensures '=' !in p.name
    ensures '=' in sequence ==> sequence == p.name + "=" + p.value
    ensures '=' !in sequence ==> p == Param(sequence, "")
  {
    var i := CharIndex(sequence, '=');
    if i < |sequence| then
      assert sequence == sequence[..i] + "=" + sequence[i + 1..];
      Param(sequence[..i], sequence[i + 1..])
    else
      assert sequence[..i] == sequence;
      Param(sequence, "")
  }

  /** The pairs of the non-empty sequences, in order. */
  function ParseSequences(sequences: seq<string>): (ps: seq<Param>)
    ensures |ps| <= |sequences|
    ensures forall i :: 0 <= i < |ps| ==> exists k :: 0 <= k < |sequences| && sequences[k] != "" && ps[i] == ParseParam(sequences[k])
    ensures (forall k :: 0 <= k < |sequences| ==> sequences[k] != "") ==>
      |ps| == |sequences| && forall k :: 0 <= k < |sequences| ==> ps[k] == ParseParam(sequences[k])
  {
    if |sequences| == 0 then []
    else if sequences[0] == "" then ParseSequences(sequences[1..])
    else [ParseParam(sequences[0])] + ParseSequences(sequences[1..])
  }

  /** Parsing distributes over concatenation, so the pairs come in the order of their
      sequences and an empty sequence contributes none. */
  lemma {:induction false} ParseSequencesAppend(a: seq<string>, b: seq<string>)
    ensures ParseSequences(a + b) == ParseSequences(a) + ParseSequences(b)
    decreases |a|
  {
    if |a| == 0 {
      assert a + b == b;
    } else {
      assert (a + b)[0] == a[0] && (a + b)[1..] == a[1..] + b;
      ParseSequencesAppend(a[1..], b);
    }
  }

  /** `new URLSearchParams(search)`: a leading `?` is dropped, the rest is split at `&`. */
  function Params(search: string): (ps: seq<Param>)
    ensures forall i :: 0 <= i < |ps| ==> '&' !in ps[i].name && '&' !in ps[i].value
  {
    var query := if |search| > 0 && search[0] == '?' then search[1..] else search;
    var sequences := Split(query, '&');
    var ps := ParseSequences(sequences);
    assert forall i :: 0 <= i < |ps| ==> '&' !in ps[i].name && '&' !in ps[i].value by {
      forall i | 0 <= i < |ps|
        ensures '&' !in ps[i].name && '&' !in ps[i].value
      {
        var k :| 0 <= k < |sequences| && sequences[k] != "" && ps[i] == ParseParam(sequences[k]);
        ParamPartsOf(sequences[k]);
      }
    }
    ps
  }

  /** The name and the value of a pair are pieces of its sequence. */
  lemma ParamPartsOf(sequence: string)
    ensures forall c :: c in ParseParam(sequence).name || c in ParseParam(sequence).value ==> c in sequence
  {
    var p := ParseParam(sequence);
    if '=' in sequence {
      assert sequence == p.name + "=" + p.value;
    }
  }

  /** `params.get(name)`: the value of the first pair with that name, `None` for null. */
  function Lookup(ps: seq<Param>, name: string): (r: Option<string>)
    ensures r.Some? <==> exists i :: 0 <= i < |ps| && ps[i].name == name
    ensures r.Some? ==>
      exists i :: 0 <= i < |ps| && ps[i] == Param(name, r.value) && (forall j :: 0 <= j < i ==> ps[j].name != name)
  {
    if |ps| == 0 then None
    else if ps[0].name == name then Some(ps[0].value)
    else
      var r := Lookup(ps[1..], name);
      assert forall i :: 1 <= i < |ps| ==> ps[1..][i - 1] == ps[i];
      r
  }

  /** `parseInt(params.get(name), 10)`; a missing name reads as NaN. */
  function Field(ps: seq<Param>, name: string): (r: Option<nat>)
    ensures (forall i :: 0 <= i < |ps| ==> ps[i].name != name) ==> r.None?
    ensures r.Some? ==> exists i :: 0 <= i < |ps| && ps[i].name == name && ParseInt(ps[i].value) == r
  {
    match Lookup(ps, name)
    case None => None
    case Some(v) => ParseInt(v)
  }

  /** `createSearchParams(state)`: exactly the two pairs `dummy` and `count`, in
      that order, with decimal values. */
  function CreateSearchParams(s: CounterState): (search: string)
    ensures Params(search) == [Param("dummy", NatToString(s.dummy)), Param("count", NatToString(s.count))]
  {
    var d, c := NatToString(s.dummy), NatToString(s.count);
    NamesAreSafe();
    DigitsAreSafe(d);
    DigitsAreSafe(c);
    ParamsOfTwoPairs("dummy", d, "count", c);
    "?" + "dummy" + "=" + d + "&" + "count" + "=" + c
  }

  /** `getData(location)`: the initial state for an empty search, otherwise the
      `dummy` and `count` parameters looked up by name; `None` when either reads as NaN. */
  function GetData(search: string): (r: Option<CounterState>)
    ensures search == "" ==> r == Some(InitialState)
  {
    if search == "" then Some(InitialState)
    else
      var ps := Params(search);
      var count, dummy := Field(ps, "count"), Field(ps, "dummy");
      if count.Some? && dummy.Some? then Some(CounterState(dummy.value, count.value)) else None
  }

  lemma NamesAreSafe()
    ensures '=' !in "dummy" && '&' !in "dummy"
    ensures '=' !in "count" && '&' !in "count"
  {
    assert "dummy" == ['d', 'u', 'm', 'm', 'y'];
    assert "count" == ['c', 'o', 'u', 'n', 't'];
  }

  lemma DigitsAreSafe(v: string)
    requires AllDigits(v)
    ensures '&' !in v && '=' !in v
  {
  }

  /** A name without `=`, then `=`, then the value, parses to that pair. */
  lemma ParseParamOfPair(n: string, v: string)
    requires '=' !in n
    ensures ParseParam(n + "=" + v) == Param(n, v)
  {
    var sequence := n + "=" + v;
    assert sequence == n + ['='] + v;
    CharIndexAfterPrefix(n, '=', v);
    assert sequence[..|n|] == n && sequence[|n| + 1..] == v;
  }

  /** A query of two pairs whose names hold no `=` or `&` and whose values hold no `&`. */
  lemma ParamsOfTwoPairs(n1: string, v1: string, n2: string, v2: string)
    requires '=' !in n1 && '&' !in n1 && '&' !in v1
    requires '=' !in n2 && '&' !in n2 && '&' !in v2
    ensures Params("?" + n1 + "=" + v1 + "&" + n2 + "=" + v2) == [Param(n1, v1), Param(n2, v2)]
  {
    var first: string, second: string := n1 + "=" + v1, n2 + "=" + v2;
    var query := first + ['&'] + second;
    assert ("?" + n1 + "=" + v1 + "&" + n2 + "=" + v2)[1..] == query;
    assert '&' !in first && '&' !in second;
    assert Split(query, '&') == [first, second] by {
      SplitCons(first, '&', second);
      SplitSingle(second, '&');
    }
    ParseSequencesOfTwo(first, second);
    ParseParamOfPair(n1, v1);
    ParseParamOfPair(n2, v2);
  }

  lemma ParseSequencesOfTwo(first: string, second: string)
    requires first != "" && second != ""
    ensures ParseSequences([first, second]) == [ParseParam(first), ParseParam(second)]
  {
    assert [first, second][1..] == [second];
    assert |[second][1..]| == 0;
  }

  lemma DecodeTwoPairs(s: CounterState, ps: seq<Param>)
    requires ps == [Param("dummy", NatToString(s.dummy)), Param("count", NatToString(s.count))]
          || ps == [Param("count", NatToString(s.count)), Param("dummy", NatToString(s.dummy))]
    ensures Field(ps, "dummy") == Some(s.dummy) && Field(ps, "count") == Some(s.count)
  {
    ParseIntOfNatToString(s.dummy);
    ParseIntOfNatToString(s.count);
    assert "dummy" != "count" by {
      assert "dummy"[0] != "count"[0];
    }
    if ps[0].name == "dummy" {
      assert Lookup(ps, "dummy") == Some(NatToString(s.dummy));
      assert Lookup(ps, "count") == Lookup(ps[1..], "count") == Some(NatToString(s.count));
    } else {
      assert Lookup(ps, "count") == Some(NatToString(s.count));
      assert Lookup(ps, "dummy") == Lookup(ps[1..], "dummy") == Some(NatToString(s.dummy));
    }
  }

  /** Encoding a state into the query string and reading it back gives the state. */
  lemma RoundTrip(s: CounterState)
    ensures GetData(CreateSearchParams(s)) == Some(s)
  {
    DecodeTwoPairs(s, Params(CreateSearchParams(s)));
  }

  /** The parameters are found by name, so listing `count` first decodes the same. */
  lemma OrderIrrelevant(s: CounterState)
    ensures GetData("?" + "count" + "=" + NatToString(s.count) + "&" + "dummy" + "=" + NatToString(s.dummy)) == Some(s)
  {
    var d, c := NatToString(s.dummy), NatToString(s.count);
    NamesAreSafe();
    DigitsAreSafe(d);
    DigitsAreSafe(c);
    ParamsOfTwoPairs("count", c, "dummy", d);
    DecodeTwoPairs(s, Params("?" + "count" + "=" + c + "&" + "dummy" + "=" + d));
  }

  /** The increment and double handlers: `history.replace(createSearchParams(reducer(getData(location), action)))`;
      the replaced location's search decodes to the reducer's result on the old one,
      and `None` when the current search does not decode. */
  function OnAction(search: string, action: Action): (r: Option<string>)
    ensures r.Some? <==> GetData(search).Some?
    ensures r.Some? ==> GetData(r.value) == Some(Reducer(GetData(search), action))
  {
    match GetData(search)
    case None => None
    case Some(data) =>
      var next := Reducer(Some(data), action);
      RoundTrip(next);
      Some(CreateSearchParams(next))
  }
}

=== FILE: readme_raw.dfy ===
/** The raw-output section of the README updater: the captured test log is split
    into lines, a window around the lines that carry a pass or fail mark is
    selected, every line is cleaned of progress-bar residue, and every third line
    of the window is kept. */
module ReadmeRaw {
  import Text

  /** `resultsRaw.split(/\n\r|\n/)`: a line feed ends a line, and a carriage return
      directly after it belongs to the separator. */
  function SplitLines(s: string): (lines: seq<string>)
    ensures 1 <= |lines|
    ensures forall i :: 0 <= i < |lines| ==> '\n' !in lines[i]
  {
    if |s| == 0 then [""]
    else if s[0] == '\n' then
      [""] + SplitLines(if 2 <= |s| && s[1] == '\r' then s[2..] else s[1..])
    else
      var rest := SplitLines(s[1..]);
      [[s[0]] + rest[0]] + rest[1..]
  }

  /** Without carriage returns the line split is the plain split at line feeds. */
  lemma {:induction false} SplitLinesWithoutCarriageReturns(s: string)
    requires '\r' !in s
    ensures SplitLines(s) == Text.Split(s, '\n')
  {
    if |s| > 0 {
      assert '\r' !in s[1..];
      SplitLinesWithoutCarriageReturns(s[1..]);
    }
  }

  /** A line-feed-free prefix joins the first line of what follows it. */
  lemma {:induction false} SplitLinesPrefix(a: string, s: string)
    requires '\n' !in a
    ensures SplitLines(a + s) == [a + SplitLines(s)[0]] + SplitLines(s)[1..]
    decreases |a|
  {
    if |a| == 0 {
      assert a + s == s;
      var lines := SplitLines(s);
      assert a + lines[0] == lines[0];
      assert [lines[0]] + lines[1..] == lines;
    } else {
      assert (a + s)[0] == a[0] && a[0] != '\n';
      assert (a + s)[1..] == a[1..] + s;
      SplitLinesPrefix(a[1..], s);
      var rest := SplitLines(a[1..] + s);
      assert rest[0] == a[1..] + SplitLines(s)[0] && rest[1..] == SplitLines(s)[1..];
      assert SplitLines(a + s) == [[a[0]] + rest[0]] + rest[1..];
      assert [a[0]] + (a[1..] + SplitLines(s)[0]) == a + SplitLines(s)[0];
    }
  }

  /** A text without line feeds is one line. */
  lemma SplitLinesSingle(a: string)
    requires '\n' !in a
    ensures SplitLines(a) == [a]
  {
    SplitLinesPrefix(a, "");
    assert a + "" == a;
  }

  /** `\n\r` is one separator: the carriage return does not start the next line. */
  lemma SplitLinesAtLineFeedReturn(a: string, b: string)
    requires '\n' !in a
    ensures SplitLines(a + "\n\r" + b) == [a] + SplitLines(b)
  {
    var s := "\n\r" + b;
    assert a + "\n\r" + b == a + s;
    assert s[0] == '\n' && s[1] == '\r' && s[2..] == b;
    assert SplitLines(s) == [""] + SplitLines(b);
    SplitLinesPrefix(a, s);
    assert a + "" == a;
  }

  /** A lone line feed separates too, when no carriage return follows it. */
  lemma SplitLinesAtLineFeed(a: string, b: string)
    requires '\n' !in a
    requires |b| == 0 || b[0] != '\r'
    ensures SplitLines(a + "\n" + b) == [a] + SplitLines(b)
  {
    var s := "\n" + b;
    assert a + "\n" + b == a + s;
    assert s[0] == '\n' && s[1..] == b;
    assert SplitLines(s) == [""] + SplitLines(b);
    SplitLinesPrefix(a, s);
    assert a + "" == a;
  }

  /** A test result line carries a check mark or a cross: `line.match(/[✓✕]/)`. */
  predicate IsMarked(line: string) {
    '\U{2713}' in line || '\U{2715}' in line
  }

  /** The first marked line at or after `from`, or `|lines|` when there is none. */
  function NextMarked(lines: seq<string>, from: nat): (k: nat)
    requires from <= |lines|
    ensures from <= k <= |lines|
    ensures k < |lines| ==> IsMarked(lines[k])
    ensures forall j :: from <= j < k ==> !IsMarked(lines[j])
    decreases |lines| - from
  {
    if from == |lines| || IsMarked(lines[from]) then from else NextMarked(lines, from + 1)
  }

  /** What `note` leaves in `first` and `last` after a pass over all lines: `last` is
      the final marked line (0 when none is marked); `first` is six lines before the
      first marked line, except that when that value is 0 it is re-taken at the next
      marked line, because `!first` treats 0 as not yet set. */
  predicate IsWindow(lines: seq<string>, first: int, last: nat) {
    var m0 := NextMarked(lines, 0);
    if m0 == |lines| then first == 0 && last == 0
    else
      && last < |lines| && IsMarked(lines[last])
      && (forall j :: last < j < |lines| ==> !IsMarked(lines[j]))
      && first == (if m0 != 6 then m0 - 6
                   else var m1 := NextMarked(lines, 7); if m1 == |lines| then 0 else m1 - 6)
  }

  /** The `first`/`last` bookkeeping of `note` applied to every line in order. */
  method FindWindow(lines: seq<string>) returns (first: int, last: nat)
    ensures IsWindow(lines, first, last)
  {
    first, last := 0, 0;
    var ix := 0;
    while ix < |lines|
      invariant 0 <= ix <= |lines|
      invariant NextMarked(lines, 0) >= ix ==> first == 0 && last == 0
      invariant NextMarked(lines, 0) < ix ==>
        last < ix && IsMarked(lines[last]) && forall j :: last < j < ix ==> !IsMarked(lines[j])
      invariant NextMarked(lines, 0) < ix && NextMarked(lines, 0) != 6 ==> first == NextMarked(lines, 0) - 6
      invariant NextMarked(lines, 0) < ix && NextMarked(lines, 0) == 6 ==>
        first == (if NextMarked(lines, 7) < ix then NextMarked(lines, 7) - 6 else 0)
    {
      if IsMarked(lines[ix]) {
        if first == 0 {
          first := ix - 6;
        }
        last := ix;
      }
      ix := ix + 1;
    }
  }

  /** Ten lines whose only mark is on line 2: `note` leaves `first == -4`, so
      `slice(-4, 3)` starts at line 6, after the end, and the marked line is lost. */
  lemma EarlyMarkEmptiesWindow()
    ensures var lines := ["", "", "\U{2713} ok", "", "", "", "", "", "", ""];
      && IsWindow(lines, -4, 2)
      && IsMarked(lines[2])
      && Slice(lines, -4, 2 + 1) == []
  {
    var lines := ["", "", "\U{2713} ok", "", "", "", "", "", "", ""];
    assert IsMarked(lines[2]);
    assert NextMarked(lines, 0) == 2;
  }

  /** Marks on lines 6 and 20 only: `first` becomes 0 at line 6, which `!first` then
      reads as unset, so line 20 moves it to 14 and the window skips the mark on line 6. */
  lemma MarkAtSixIsSkipped()
    ensures var lines := seq(22, i => if i == 6 || i == 20 then "\U{2715} failed" else "");
      && IsWindow(lines, 14, 20)
      && IsMarked(lines[6])
      && 6 < 14
  {
    var lines := seq(22, i => if i == 6 || i == 20 then "\U{2715} failed" else "");
    assert IsMarked(lines[6]) && IsMarked(lines[20]);
    assert NextMarked(lines, 0) == 6;
    assert NextMarked(lines, 7) == 20;
  }

  /** The last marked line before `upto`, or -1 when there is none. */
  function LastMarked(lines: seq<string>, upto: nat): (k: int)
    requires upto <= |lines|
    ensures -1 <= k < upto
    ensures 0 <= k ==> IsMarked(lines[k])
    ensures forall j :: k < j < upto ==> !IsMarked(lines[j])
  {
    if upto == 0 then -1
    else if IsMarked(lines[upto - 1]) then upto - 1
    else LastMarked(lines, upto - 1)
  }

  /** The window `note` is evidently meant to find: from six lines before the first
      marked line, but not before the first line, to the last marked line. Every
      marked line lies inside it. */
  function IntendedWindow(lines: seq<string>): (w: (nat, nat))
    ensures forall i :: 0 <= i < |lines| && IsMarked(lines[i]) ==> w.0 <= i <= w.1
    ensures NextMarked(lines, 0) < |lines| ==>
      && w.1 < |lines| && IsMarked(lines[w.1])
      && w.0 == (if NextMarked(lines, 0) < 6 then 0 else NextMarked(lines, 0) - 6)
    ensures NextMarked(lines, 0) == |lines| ==> w == (0, 0)
  {
    var m0 := NextMarked(lines, 0);
    if m0 == |lines| then (0, 0)
    else (if m0 < 6 then 0 else m0 - 6, LastMarked(lines, |lines|))
  }

  /** `.` in a regular expression: any character but a line terminator. */
  predicate IsLineTerminator(c: char) {
    c == '\n' || c == '\r' || c == '\U{2028}' || c == '\U{2029}'
  }

  /** `line.replace(/..\r/g, '')`: scanning left to right, two ordinary characters
      followed by a carriage return are removed together. */
  function DropCarriageReturns(s: string): (r: string)
    ensures |r| <= |s| && (|s| - |r|) % 3 == 0
  {
    if 3 <= |s| && !IsLineTerminator(s[0]) && !IsLineTerminator(s[1]) && s[2] == '\r' then
      DropCarriageReturns(s[3..])
    else if |s| == 0 then ""
    else
      [s[0]] + DropCarriageReturns(s[1..])
  }

  /** A line without carriage returns is unchanged. */
  lemma {:induction false} DropCarriageReturnsKeepsClean(s: string)
    requires '\r' !in s
    ensures DropCarriageReturns(s) == s
    decreases |s|
  {
    if |s| != 0 {
      assert '\r' !in s[1..];
      DropCarriageReturnsKeepsClean(s[1..]);
      assert [s[0]] + s[1..] == s;
    }
  }

  /** A first character that does not start a match is kept. */
  lemma DropCarriageReturnsKeepsFirst(s: string)
    requires 1 <= |s| && (|s| < 3 || s[2] != '\r')
    ensures DropCarriageReturns(s) == [s[0]] + DropCarriageReturns(s[1..])
  {
  }

  /** The first character of a stretch without carriage returns, followed by a match,
      does not start a match itself and is kept. */
  lemma DropCarriageReturnsPastFirst(t: string, w: string)
    requires 1 <= |t| && '\r' !in t
    requires 3 <= |w| && !IsLineTerminator(w[0]) && !IsLineTerminator(w[1])
    ensures DropCarriageReturns(t + w) == [t[0]] + DropCarriageReturns(t[1..] + w)
  {
    var s := t + w;
    assert s[2] != '\r' by {
      if |t| >= 3 { assert s[2] == t[2]; }
      else if |t| == 2 { assert s[2] == w[0]; }
      else { assert s[2] == w[1]; }
    }
    DropCarriageReturnsKeepsFirst(s);
    assert s[1..] == t[1..] + w;
  }

  /** A match at the start of `w`, after a stretch `t` without carriage returns:
      `t` is kept and the match removed. */
  lemma {:induction false} DropCarriageReturnsAfter(t: string, w: string)
    requires '\r' !in t
    requires 3 <= |w| && !IsLineTerminator(w[0]) && !IsLineTerminator(w[1]) && w[2] == '\r'
    ensures DropCarriageReturns(t + w) == t + DropCarriageReturns(w[3..])
    decreases |t|
  {
    if |t| == 0 {
      assert t + w == w;
    } else {
      var rest := DropCarriageReturns(w[3..]);
      DropCarriageReturnsPastFirst(t, w);
      DropCarriageReturnsAfter(t[1..], w);
      assert [t[0]] + (t[1..] + rest) == t + rest;
    }
  }

  /** Two ordinary characters and a carriage return, after a stretch without carriage
      returns, are removed; the stretch before them is kept. */
  lemma DropCarriageReturnsStep(t: string, x: char, y: char, u: string)
    requires '\r' !in t && !IsLineTerminator(x) && !IsLineTerminator(y)
    ensures DropCarriageReturns(t + [x, y, '\r'] + u) == t + DropCarriageReturns(u)
  {
    var w := [x, y, '\r'] + u;
    assert w[3..] == u;
    DropCarriageReturnsAfter(t, w);
    assert t + [x, y, '\r'] + u == t + w;
  }

  /** `line.replace(/\[.../g, '')`: scanning left to right, an opening bracket and the
      three ordinary characters after it are removed together (terminal escape codes). */
  function DropEscapes(s: string): (r: string)
    ensures |r| <= |s| && (|s| - |r|) % 4 == 0
  {
    if 4 <= |s| && s[0] == '[' && !IsLineTerminator(s[1]) && !IsLineTerminator(s[2]) && !IsLineTerminator(s[3]) then
      DropEscapes(s[4..])
    else if |s| == 0 then ""
    else
      [s[0]] + DropEscapes(s[1..])
  }

  /** A stretch without opening brackets is kept as it is. */
  lemma {:induction false} DropEscapesKeepsPlain(t: string, u: string)
    requires '[' !in t
    ensures DropEscapes(t + u) == t + DropEscapes(u)
    decreases |t|
  {
    if |t| == 0 {
      assert t + u == u;
    } else {
      assert (t + u)[1..] == t[1..] + u;
      DropEscapesKeepsPlain(t[1..], u);
      assert [t[0]] + t[1..] == t;
    }
  }

  /** A line without opening brackets is unchanged. */
  lemma DropEscapesKeepsClean(s: string)
    requires '[' !in s
    ensures DropEscapes(s) == s
  {
    DropEscapesKeepsPlain(s, "");
    assert s + "" == s;
  }

  /** An opening bracket and three ordinary characters, after a stretch without
      brackets, are removed; the stretch before them is kept. */
  lemma DropEscapesStep(t: string, x: char, y: char, z: char, u: string)
    requires '[' !in t && !IsLineTerminator(x) && !IsLineTerminator(y) && !IsLineTerminator(z)
    ensures DropEscapes(t + ['[', x, y, z] + u) == t + DropEscapes(u)
  {
    var s := ['[', x, y, z] + u;
    assert t + ['[', x, y, z] + u == t + s;
    DropEscapesKeepsPlain(t, s);
    assert s[4..] == u;
  }

  /** `note`'s return value: the line without carriage-return residue and escape
      codes, less its first five characters (`substr(5)`). */
  function CleanLine(line: string): (r: string)
    ensures '\r' !in line && '[' !in line ==> r == line[if |line| < 5 then |line| else 5..]
  {
    var s := DropEscapes(DropCarriageReturns(line));
    assert '\r' !in line && '[' !in line ==> s == line by {
      if '\r' !in line && '[' !in line {
        DropCarriageReturnsKeepsClean(line);
        DropEscapesKeepsClean(line);
      }
    }
    s[if |s| < 5 then |s| else 5..]
  }

  /** A line without carriage returns loses each escape code, then its first five characters. */
  lemma CleanLineDropsEscape(t: string, x: char, y: char, z: char, u: string)
    requires '\r' !in t && '\r' !in u && '[' !in t
    requires !IsLineTerminator(x) && !IsLineTerminator(y) && !IsLineTerminator(z)
    ensures var s := t + DropEscapes(u);
      CleanLine(t + ['[', x, y, z] + u) == s[if |s| < 5 then |s| else 5..]
  {
    var line := t + ['[', x, y, z] + u;
    assert '\r' !in line by {
      forall i | 0 <= i < |line|
        ensures line[i] != '\r'
      {
        if i >= |t| + 4 { assert line[i] == u[i - |t| - 4]; }
      }
    }
    DropCarriageReturnsKeepsClean(line);
    DropEscapesStep(t, x, y, z, u);
  }

  /** `lines.map(note)`: every line cleaned, in order. */
  function CleanLines(lines: seq<string>): (r: seq<string>)
    ensures |r| == |lines|
    ensures forall i :: 0 <= i < |lines| ==> r[i] == CleanLine(lines[i])
  {
    if |lines| == 0 then [] else [CleanLine(lines[0])] + CleanLines(lines[1..])
  }

  /** The index `Array.prototype.slice` starts or ends at: a negative argument counts
      from the end, and the result is clamped to the array. */
  function SliceIndex(i: int, n: nat): (k: nat)
    ensures k <= n
    ensures 0 <= i <= n ==> k == i
    ensures i < 0 && 0 <= n + i ==> k == n + i
    ensures n + i < 0 ==> k == 0
    ensures i > n ==> k == n
  {
    if i < 0 then (if n + i < 0 then 0 else n + i) else if i > n then n else i
  }

  /** `xs.slice(start, end)`. */
  function Slice<T>(xs: seq<T>, start: int, end: int): (r: seq<T>)
    ensures var from, to := SliceIndex(start, |xs|), SliceIndex(end, |xs|);
      && |r| == (if from < to then to - from else 0)
      && forall j :: 0 <= j < |r| ==> from + j < |xs| && r[j] == xs[from + j]
  {
    var from, to := SliceIndex(start, |xs|), SliceIndex(end, |xs|);
    if from < to then xs[from..to] else []
  }

  /** `lines.filter((line, ix) => ix % 3 === 0)`: exactly the elements at positions
      0, 3, 6, ..., in their original order. */
  function EveryThird<T>(xs: seq<T>): (r: seq<T>)
    ensures |r| == (|xs| + 2) / 3
    ensures forall j :: 0 <= j < |r| ==> r[j] == xs[3 * j]
  {
    if |xs| == 0 then []
    else if |xs| <= 3 then [xs[0]]
    else
      var rest := EveryThird(xs[3..]);
      assert forall j :: 1 <= j < 1 + |rest| ==> rest[j - 1] == xs[3 * j];
      [xs[0]] + rest
  }

  /** The lines that go into the README's raw-output block: the log's lines are
      cleaned, the window around the marked lines is cut out (the intended window,
      see `IntendedWindow`), and every third line of it is kept, starting with the
      window's first line. */
  method RawOutput(raw: string) returns (kept: seq<string>, first: nat, last: nat)
    ensures (first, last) == IntendedWindow(SplitLines(raw))
    ensures var lines := SplitLines(raw);
      && |kept| == (last - first + 3) / 3
      && forall j :: 0 <= j < |kept| ==> first + 3 * j <= last < |lines| && kept[j] == CleanLine(lines[first + 3 * j])
  {
    var lines := SplitLines(raw);
    var cleaned := CleanLines(lines);
    var w := IntendedWindow(lines);
    IntendedWindowInRange(lines);
    first, last := w.0, w.1;
    kept := EveryThird(Slice(cleaned, first, last + 1));
    EveryThirdOfWindow(cleaned, first, last);
  }

  /** The lines as `update_readme.js` selects them, with the window `note` leaves in
      `first` and `last`: the slice and the filter take `first` as it is, negative or
      not. When the first mark lies after line 6, or there is none, this is the
      intended window and the same lines as `RawOutput`. */
  method RawOutputAsWritten(raw: string) returns (kept: seq<string>, first: int, last: nat)
    ensures IsWindow(SplitLines(raw), first, last)
    ensures kept == EveryThird(Slice(CleanLines(SplitLines(raw)), first, last + 1))
    ensures var lines := SplitLines(raw);
      var m0 := NextMarked(lines, 0);
      (m0 > 6 || m0 == |lines|) ==>
        && (first, last) == IntendedWindow(lines)
        && |kept| == (last - first + 3) / 3
        && forall j :: 0 <= j < |kept| ==> first + 3 * j <= last < |lines| && kept[j] == CleanLine(lines[first + 3 * j])
  {
    var lines := SplitLines(raw);
    var cleaned := CleanLines(lines);
    first, last := FindWindow(lines);
    kept := EveryThird(Slice(cleaned, first, last + 1));
    if NextMarked(lines, 0) > 6 || NextMarked(lines, 0) == |lines| {
      WindowAsWrittenKeepsIntended(lines, first, last);
    }
  }

  /** With no mark, or a first mark after line 6, the lines selected through `note`'s
      window are every third cleaned line of the intended window. */
  lemma WindowAsWrittenKeepsIntended(lines: seq<string>, first: int, last: nat)
    requires 1 <= |lines| && IsWindow(lines, first, last)
    requires NextMarked(lines, 0) > 6 || NextMarked(lines, 0) == |lines|
    ensures (first, last) == IntendedWindow(lines)
    ensures var kept := EveryThird(Slice(CleanLines(lines), first, last + 1));
      && |kept| == (last - first + 3) / 3
      && forall j :: 0 <= j < |kept| ==> first + 3 * j <= last < |lines| && kept[j] == CleanLine(lines[first + 3 * j])
  {
    WindowAsWrittenIsIntended(lines, first, last);
    IntendedWindowInRange(lines);
    EveryThirdOfWindow(CleanLines(lines), first, last);
  }

  /** With no mark, or a first mark after line 6, `note`'s window is the intended one. */
  lemma WindowAsWrittenIsIntended(lines: seq<string>, first: int, last: nat)
    requires IsWindow(lines, first, last)
    requires NextMarked(lines, 0) > 6 || NextMarked(lines, 0) == |lines|
    ensures (first, last) == IntendedWindow(lines)
  {
    var m0 := NextMarked(lines, 0);
    if m0 < |lines| {
      var w := IntendedWindow(lines);
      assert IsMarked(lines[w.1]);
      assert w.1 <= last;
      assert IsMarked(lines[last]);
      assert last <= w.1;
    }
  }

  /** Every third element of `xs.slice(first, last + 1)` is the element at `first`,
      `first + 3`, ..., up to `last`. */
  lemma EveryThirdOfWindow<T>(xs: seq<T>, first: nat, last: nat)
    requires first <= last < |xs|
    ensures var kept := EveryThird(Slice(xs, first, last + 1));
      && |kept| == (last - first + 3) / 3
      && forall j :: 0 <= j < |kept| ==> first + 3 * j <= last && kept[j] == xs[first + 3 * j]
  {
    var window := Slice(xs, first, last + 1);
    assert SliceIndex(first, |xs|) == first && SliceIndex(last + 1, |xs|) == last + 1;
    assert |window| == last + 1 - first;
    var kept := EveryThird(window);
    forall j | 0 <= j < |kept|
      ensures first + 3 * j <= last && kept[j] == xs[first + 3 * j]
    {
      ThirdBelow(|window|, j);
      assert kept[j] == window[3 * j];
    }
  }

  /** The window lies inside the log: it starts no later than it ends, and ends on a line. */
  lemma IntendedWindowInRange(lines: seq<string>)
    requires 1 <= |lines|
    ensures IntendedWindow(lines).0 <= IntendedWindow(lines).1 < |lines|
  {
    var m0 := NextMarked(lines, 0);
    if m0 < |lines| {
      assert IntendedWindow(lines).0 <= m0 <= IntendedWindow(lines).1;
    }
  }

  lemma ThirdBelow(n: nat, j: nat)
    requires j < (n + 2) / 3
    ensures 3 * j < n
  {
  }
}

=== FILE: readme_table.dfy ===
/** The results table of the README updater: test results are grouped six to a
    row (one row per library, one column per test case), every result becomes a
    check-mark or cross icon, and each row renders as an HTML table row. */
module ReadmeTable {
  import opened Wrappers

  /** `wrap(content, tag)`: the content between an opening and a closing tag. */
  function Wrap(content: string, tag: string): string {
    "<" + tag + ">" + content + "</" + tag + ">"
  }

  /** A wrapped string is the opening tag, the content unchanged, and the closing tag. */
  lemma WrapParts(content: string, tag: string)
    ensures var r := Wrap(content, tag);
      && |r| == |content| + 2 * |tag| + 5
      && r[..|tag| + 2] == "<" + tag + ">"
      && r[|tag| + 2..|tag| + 2 + |content|] == content
      && r[|tag| + 2 + |content|..] == "</" + tag + ">"
  {
  }

  const FailedIcon: string := ":x:"
  const PassedIcon: string := ":white_check_mark:"

  /** `check(status)`: a cross exactly for the status "failed", a check mark for any other. */
  function Check(status: string): (icon: string)
    ensures icon == FailedIcon <==> status == "failed"
    ensures icon == PassedIcon <==> status != "failed"
  {
    if status == "failed" then FailedIcon else PassedIcon
  }

  /** One assertion result: its status and the title of its test suite (the library). */
  datatype Cell = Cell(status: string, title: string)

  const RowWidth: nat := 6

  /** The cells of `rows`, row by row. */
  function Flatten(rows: seq<seq<Cell>>): seq<Cell> {
    if |rows| == 0 then [] else Flatten(rows[..|rows| - 1]) + rows[|rows| - 1]
  }

  /** The first `ix` cells are filed: row `j / 6`, column `j % 6` holds cell `j`, every
      row but the last is full, and the rows read back in order give the cells. */
  predicate Filed(rows: seq<seq<Cell>>, cells: seq<Cell>, ix: nat) {
    && ix <= |cells|
    && (|rows| == 0 <==> ix == 0)
    && (0 < |rows| ==> ix == RowWidth * (|rows| - 1) + |rows[|rows| - 1]|)
    && (forall r :: 0 <= r < |rows| ==> 1 <= |rows[r]| <= RowWidth)
    && (forall r :: 0 <= r < |rows| - 1 ==> |rows[r]| == RowWidth)
    && (forall j :: 0 <= j < ix ==>
         j / RowWidth < |rows| && j % RowWidth < |rows[j / RowWidth]| && rows[j / RowWidth][j % RowWidth] == cells[j])
    && Flatten(rows) == cells[..ix]
  }

  /** `row[k] = cell` on a dense array: overwrite inside, append at the end. */
  function Store(row: seq<Cell>, k: nat, cell: Cell): (r: seq<Cell>)
    requires k <= |row|
    ensures |r| == if k < |row| then |row| else |row| + 1
    ensures r[k] == cell && r[..k] == row[..k]
    ensures k < |row| ==> r[k + 1..] == row[k + 1..]
  {
    if k < |row| then row[k := cell] else row + [cell]
  }

  /** One step of the `forEach`: `testResults[testNumber] = testResults[testNumber] || []`
      followed by `testResults[testNumber][ix % 6] = cell`. */
  function FileCell(rows: seq<seq<Cell>>, ix: nat, cell: Cell): (r: seq<seq<Cell>>)
    requires ix / RowWidth <= |rows|
    requires ix / RowWidth < |rows| ==> ix % RowWidth <= |rows[ix / RowWidth]|
    requires ix / RowWidth == |rows| ==> ix % RowWidth == 0
    ensures |r| == if ix / RowWidth < |rows| then |rows| else |rows| + 1
    ensures ix % RowWidth < |r[ix / RowWidth]| && r[ix / RowWidth][ix % RowWidth] == cell
    ensures forall j :: 0 <= j < |rows| && j != ix / RowWidth ==> r[j] == rows[j]
  {
    var testNumber := ix / RowWidth;
    if testNumber < |rows| then rows[testNumber := Store(rows[testNumber], ix % RowWidth, cell)]
    else rows + [Store([], ix % RowWidth, cell)]
  }

  /** The rows after the first `ix` steps of the `forEach`: each step files one result. */
  function Grouped(cells: seq<Cell>, ix: nat): (rows: seq<seq<Cell>>)
    requires ix <= |cells|
    ensures Filed(rows, cells, ix)
  {
    if ix == 0 then []
    else
      var rows := Grouped(cells, ix - 1);
      FiledStep(rows, cells, ix);
      FileCell(rows, ix - 1, cells[ix - 1])
  }

  /** The assertion at index `ix` lands at row `ix / 6`, column `ix % 6`. Every row
      holds one to six cells, only the last may be short, and reading the rows in
      order gives the results back. */
  function GroupResults(cells: seq<Cell>): (rows: seq<seq<Cell>>)
    ensures |rows| == (|cells| + RowWidth - 1) / RowWidth
    ensures forall r :: 0 <= r < |rows| ==> 1 <= |rows[r]| <= RowWidth
    ensures forall r :: 0 <= r < |rows| - 1 ==> |rows[r]| == RowWidth
    ensures forall ix :: 0 <= ix < |cells| ==>
      ix / RowWidth < |rows| && ix % RowWidth < |rows[ix / RowWidth]| && rows[ix / RowWidth][ix % RowWidth] == cells[ix]
    ensures Flatten(rows) == cells
  {
    var rows := Grouped(cells, |cells|);
    FiledAll(rows, cells);
    rows
  }

  lemma FiledAll(rows: seq<seq<Cell>>, cells: seq<Cell>)
    requires Filed(rows, cells, |cells|)
    ensures |rows| == (|cells| + RowWidth - 1) / RowWidth
    ensures forall r :: 0 <= r < |rows| ==> 1 <= |rows[r]| <= RowWidth
    ensures forall r :: 0 <= r < |rows| - 1 ==> |rows[r]| == RowWidth
    ensures forall ix :: 0 <= ix < |cells| ==>
      ix / RowWidth < |rows| && ix % RowWidth < |rows[ix / RowWidth]| && rows[ix / RowWidth][ix % RowWidth] == cells[ix]
    ensures Flatten(rows) == cells
  {
    assert cells[..|cells|] == cells;
    if |rows| > 0 {
      RowPosition(|cells|, |rows|, |rows[|rows| - 1]|);
    }
  }

  lemma FileCellKeepsFiled(rows: seq<seq<Cell>>, cells: seq<Cell>, ix: nat)
    requires Filed(rows, cells, ix) && ix < |cells|
    ensures ix / RowWidth <= |rows|
    ensures ix / RowWidth < |rows| ==> ix % RowWidth == |rows[ix / RowWidth]|
    ensures ix / RowWidth == |rows| ==> ix % RowWidth == 0
    ensures Filed(FileCell(rows, ix, cells[ix]), cells, ix + 1)
  {
    if |rows| > 0 {
      RowPosition(ix, |rows|, |rows[|rows| - 1]|);
    }
    FileCellKeepsIndices(rows, cells, ix);
    assert cells[..ix + 1] == cells[..ix] + [cells[ix]];
    if ix / RowWidth == |rows| {
      FileCellOpensRow(rows, cells, ix);
    } else {
      FileCellExtendsRow(rows, cells, ix);
    }
  }

  /** Filing the cell at `n - 1` into rows that hold the first `n - 1` cells files the first `n`. */
  lemma FiledStep(rows: seq<seq<Cell>>, cells: seq<Cell>, n: nat)
    requires 1 <= n <= |cells| && Filed(rows, cells, n - 1)
    ensures (n - 1) / RowWidth <= |rows|
    ensures (n - 1) / RowWidth < |rows| ==> (n - 1) % RowWidth == |rows[(n - 1) / RowWidth]|
    ensures (n - 1) / RowWidth == |rows| ==> (n - 1) % RowWidth == 0
    ensures Filed(FileCell(rows, n - 1, cells[n - 1]), cells, n)
  {
    var ix := n - 1;
    FileCellKeepsFiled(rows, cells, ix);
    assert ix + 1 == n;
  }

  /** A cell whose row does not exist yet opens a new row of one. */
  lemma FileCellOpensRow(rows: seq<seq<Cell>>, cells: seq<Cell>, ix: nat)
    requires Filed(rows, cells, ix) && ix < |cells|
    requires ix / RowWidth == |rows| && ix % RowWidth == 0
    requires cells[..ix + 1] == cells[..ix] + [cells[ix]]
    requires var next := FileCell(rows, ix, cells[ix]);
      forall j :: 0 <= j <= ix ==>
        j / RowWidth < |next| && j % RowWidth < |next[j / RowWidth]| && next[j / RowWidth][j % RowWidth] == cells[j]
    ensures Filed(FileCell(rows, ix, cells[ix]), cells, ix + 1)
  {
    var next := FileCell(rows, ix, cells[ix]);
    assert Store([], 0, cells[ix]) == [cells[ix]];
    assert next == rows + [[cells[ix]]];
    assert next[..|next| - 1] == rows;
  }

  /** A cell whose row exists is appended to that row, which is the last one. */
  lemma FileCellExtendsRow(rows: seq<seq<Cell>>, cells: seq<Cell>, ix: nat)
    requires Filed(rows, cells, ix) && ix < |cells|
    requires ix / RowWidth < |rows| && ix % RowWidth == |rows[ix / RowWidth]|
    requires cells[..ix + 1] == cells[..ix] + [cells[ix]]
    requires var next := FileCell(rows, ix, cells[ix]);
      forall j :: 0 <= j <= ix ==>
        j / RowWidth < |next| && j % RowWidth < |next[j / RowWidth]| && next[j / RowWidth][j % RowWidth] == cells[j]
    ensures Filed(FileCell(rows, ix, cells[ix]), cells, ix + 1)
  {
    RowPosition(ix, |rows|, |rows[|rows| - 1]|);
    var next := FileCell(rows, ix, cells[ix]);
    assert next == rows[|rows| - 1 := rows[|rows| - 1] + [cells[ix]]];
    assert next[..|next| - 1] == rows[..|rows| - 1];
    FlattenInit(rows);
  }

  lemma FileCellKeepsIndices(rows: seq<seq<Cell>>, cells: seq<Cell>, ix: nat)
    requires Filed(rows, cells, ix) && ix < |cells|
    requires ix / RowWidth <= |rows|
    requires ix / RowWidth == |rows| ==> ix % RowWidth == 0
    requires ix / RowWidth < |rows| ==> ix % RowWidth == |rows[ix / RowWidth]|
    ensures var next := FileCell(rows, ix, cells[ix]);
      forall j :: 0 <= j <= ix ==>
        j / RowWidth < |next| && j % RowWidth < |next[j / RowWidth]| && next[j / RowWidth][j % RowWidth] == cells[j]
  {
    var next := FileCell(rows, ix, cells[ix]);
    forall j | 0 <= j <= ix
      ensures j / RowWidth < |next| && j % RowWidth < |next[j / RowWidth]| && next[j / RowWidth][j % RowWidth] == cells[j]
    {
      if j < ix {
        assert rows[j / RowWidth][j % RowWidth] == cells[j];
      }
    }
  }

  /** Where the next cell goes when `ix` cells fill `n` rows, the last holding `len`. */
  lemma RowPosition(ix: nat, n: nat, len: nat)
    requires 1 <= n && 1 <= len <= RowWidth && ix == RowWidth * (n - 1) + len
    ensures len == RowWidth ==> ix / RowWidth == n && ix % RowWidth == 0
    ensures len < RowWidth ==> ix / RowWidth == n - 1 && ix % RowWidth == len
    ensures (ix + RowWidth - 1) / RowWidth == n
  {
  }

  lemma FlattenInit(rows: seq<seq<Cell>>)
    requires 1 <= |rows|
    ensures Flatten(rows) == Flatten(rows[..|rows| - 1]) + rows[|rows| - 1]
  {
  }

  /** An entry of `libraries`: the link target, the link text, and a note after the link. */
  datatype Library = Library(url: string, name: string, note: string)

  /** The `libraries` object read at a key: the library listed under a test-suite
      title, `None` (undefined) for any other key. */
  function LibraryOf(title: string): Option<Library> {
    if title == "react-redux" then Some(Library("https://react-redux.js.org", "react-redux", ""))
    else if title == "redux-use-mutable-source" then Some(Library("https://redux.js.org", "redux", " (w/ useMutableSource)"))
    else if title == "reactive-react-redux" then Some(Library("https://github.com/dai-shi/reactive-react-redux", "reactive-react-redux", ""))
    else if title == "react-tracked" then Some(Library("https://react-tracked.js.org", "react-tracked", ""))
    else if title == "constate" then Some(Library("https://github.com/diegohaz/constate", "constate", ""))
    else if title == "zustand" then Some(Library("https://github.com/pmndrs/zustand", "zustand", ""))
    else if title == "react-hooks-global-state" then Some(Library("https://github.com/dai-shi/react-hooks-global-state", "react-hooks-global-state", ""))
    else if title == "use-context-selector" then Some(Library("https://github.com/dai-shi/use-context-selector", "use-context-selector", " (w/ useReducer)"))
    else if title == "use-subscription" then Some(Library("https://github.com/facebook/react/tree/master/packages/use-subscription", "use-subscription", " (w/ redux)"))
    else if title == "simplux" then Some(Library("https://github.com/MrWolfZ/simplux", "simplux", ""))
    else if title == "apollo-client" then Some(Library("https://github.com/apollographql/apollo-client", "apollo-client", ""))
    else if title == "recoil" then Some(Library("https://recoiljs.org", "recoil", ""))
    else if title == "jotai" then Some(Library("https://github.com/pmndrs/jotai", "jotai", ""))
    else if title == "effector" then Some(Library("https://github.com/zerobias/effector", "effector", ""))
    else if title == "react-rxjs" then Some(Library("https://react-rxjs.org", "react-rxjs", ""))
    else if title == "valtio" then Some(Library("https://github.com/pmndrs/valtio", "valtio", ""))
    else if title == "proxily" then Some(Library("https://github.com/selsamman/proxily", "proxily", ""))
    else None
  }

  /** A key lookup like `libraries[title]`. */
  type Libraries = string -> Option<Library>

  /** `<a href="url">name</a>`: an `<a>` element whose `href` starts with the URL and
      whose text ends the element; a link is never the text "undefined". */
  function Anchor(url: string, name: string): (a: string)
    ensures 15 + |url| + |name| == |a|
    ensures a[..9] == "<a href=\"" && a[9..9 + |url|] == url
    ensures a[|a| - 4 - |name|..|a| - 4] == name && a[|a| - 4..] == "</a>"
    ensures a != "undefined"
  {
    var open, mid, close := "<a href=\"", "\">", "</a>";
    assert |open| == 9 && |mid| == 2 && |close| == 4;
    var a := open + url + mid + name + close;
    assert a[..9] == open;
    assert a[9..9 + |url|] == url;
    assert a[|a| - 4 - |name|..|a| - 4] == name;
    assert a[|a| - 4..] == close;
    assert a[0] == '<';
    a
  }

  /** `libraries[title]` in a template literal: the link of the library listed under
      the title, and "undefined" for a title with none. The README's lookup is `LibraryOf`. */
  function LibraryLink(libs: Libraries, title: string): (link: string)
    ensures link == "undefined" <==> libs(title).None?
    ensures libs(title).Some? ==>
      var a := Anchor(libs(title).value.url, libs(title).value.name);
      |a| <= |link| && link[..|a|] == a
  {
    match libs(title)
    case None => "undefined"
    case Some(lib) =>
      var a := Anchor(lib.url, lib.name);
      assert (a + lib.note)[..|a|] == a;
      a + lib.note
  }

  /** The line of one result cell. */
  function Td(c: Cell): string {
    "\t\t" + Wrap(Check(c.status), "td") + "\n"
  }

  /** The strings of `parts` written one after another. */
  function Concat(parts: seq<string>): string {
    if |parts| == 0 then "" else parts[0] + Concat(parts[1..])
  }

  lemma {:induction false} ConcatAppend(a: seq<string>, b: seq<string>)
    ensures Concat(a + b) == Concat(a) + Concat(b)
    decreases |a|
  {
    if |a| == 0 {
      assert a + b == b;
    } else {
      assert (a + b)[1..] == a[1..] + b;
      ConcatAppend(a[1..], b);
    }
  }

  /** The part at position `i` is written after the parts before it and before the parts after it. */
  lemma ConcatAt(parts: seq<string>, i: nat)
    requires i < |parts|
    ensures Concat(parts) == Concat(parts[..i]) + parts[i] + Concat(parts[i + 1..])
  {
    assert parts[..i] + parts[i..] == parts;
    ConcatAppend(parts[..i], parts[i..]);
    assert parts[i..][1..] == parts[i + 1..];
    AppendAssociates(Concat(parts[..i]), parts[i], Concat(parts[i + 1..]));
  }

  lemma AppendAssociates(a: string, b: string, c: string)
    ensures a + (b + c) == a + b + c
  {
  }

  /** The cell lines of a row, in column order. */
  function TdLines(row: seq<Cell>): (lines: seq<string>)
    ensures |lines| == |row|
    ensures forall i :: 0 <= i < |row| ==> lines[i] == Td(row[i])
  {
    if |row| == 0 then [] else [Td(row[0])] + TdLines(row[1..])
  }

  function Tds(row: seq<Cell>): string {
    Concat(TdLines(row))
  }

  lemma RegroupFive(h: string, a: string, t: string, b: string, e: string)
    ensures h + (a + t + b) + e == h + a + t + b + e
  {
  }

  /** The lines of the first `i` cells are the first `i` lines. */
  lemma TdLinesPrefix(row: seq<Cell>, i: nat)
    requires i <= |row|
    ensures TdLines(row[..i]) == TdLines(row)[..i]
  {
  }

  /** The lines of the cells after column `i` are the lines after line `i`. */
  lemma TdLinesSuffix(row: seq<Cell>, i: nat)
    requires i < |row|
    ensures TdLines(row[i + 1..]) == TdLines(row)[i + 1..]
  {
  }

  /** The cell at column `i` renders after the cells before it and before the cells after it. */
  lemma RowCellsInOrder(row: seq<Cell>, i: nat)
    requires i < |row|
    ensures Tds(row) == Tds(row[..i]) + Td(row[i]) + Tds(row[i + 1..])
  {
    ConcatAt(TdLines(row), i);
    TdLinesPrefix(row, i);
    TdLinesSuffix(row, i);
  }

  /** The header of a row: the library link of its first cell's title. */
  function RowHeader(libs: Libraries, title: string): string {
    "\t<tr>\n\t\t" + Wrap(LibraryLink(libs, title), "th") + "\n"
  }

  /** One rendered table row: the header built from the first cell's title, then one
      line per cell in column order, then the closing tag. */
  function RenderRow(libs: Libraries, row: seq<Cell>): (r: string)
    requires 1 <= |row|
    ensures 1 <= |r| && r[0] == '\t'
  {
    var r := RowHeader(libs, row[0].title) + Tds(row) + "\t</tr>\n";
    assert r[0] == RowHeader(libs, row[0].title)[0];
    r
  }

  /** Cell `i` of a row renders as its status icon, after the header and the cells
      before it and before the cells after it. */
  lemma RenderRowCells(libs: Libraries, row: seq<Cell>, i: nat)
    requires i < |row|
    ensures RenderRow(libs, row)
      == RowHeader(libs, row[0].title) + Tds(row[..i]) + ("\t\t" + Wrap(Check(row[i].status), "td") + "\n") + Tds(row[i + 1..]) + "\t</tr>\n"
  {
    RowCellsInOrder(row, i);
    RegroupFive(RowHeader(libs, row[0].title), Tds(row[..i]), Td(row[i]), Tds(row[i + 1..]), "\t</tr>\n");
  }

  /** A row's rendering reads only the first cell's title, never the other titles. */
  lemma RenderRowReadsFirstTitle(libs: Libraries, a: seq<Cell>, b: seq<Cell>)
    requires 1 <= |a| == |b| && a[0].title == b[0].title
    requires forall i :: 0 <= i < |a| ==> a[i].status == b[i].status
    ensures RenderRow(libs, a) == RenderRow(libs, b)
  {
    TdsSameStatuses(a, b);
  }

  lemma TdsSameStatuses(a: seq<Cell>, b: seq<Cell>)
    requires |a| == |b|
    requires forall i :: 0 <= i < |a| ==> a[i].status == b[i].status
    ensures Tds(a) == Tds(b)
  {
    assert TdLines(a) == TdLines(b);
  }

  /** The rendered text of each row, in row order. */
  function RowTexts(libs: Libraries, rows: seq<seq<Cell>>): (texts: seq<string>)
    requires forall r :: 0 <= r < |rows| ==> 1 <= |rows[r]|
    ensures |texts| == |rows|
    ensures forall r :: 0 <= r < |rows| ==> texts[r] == RenderRow(libs, rows[r])
  {
    if |rows| == 0 then [] else [RenderRow(libs, rows[0])] + RowTexts(libs, rows[1..])
  }

  /** The table body `sub`: every row rendered, in row order; empty only when there are no rows. */
  function RenderRows(libs: Libraries, rows: seq<seq<Cell>>): (sub: string)
    requires forall r :: 0 <= r < |rows| ==> 1 <= |rows[r]|
    ensures sub == "" <==> |rows| == 0
  {
    var texts := RowTexts(libs, rows);
    if |rows| == 0 then ""
    else
      assert Concat(texts)[0] == texts[0][0];
      Concat(texts)
  }

  /** Row `k` renders after the rows before it and before the rows after it. */
  lemma RenderRowsAt(libs: Libraries, rows: seq<seq<Cell>>, k: nat)
    requires forall r :: 0 <= r < |rows| ==> 1 <= |rows[r]|
    requires k < |rows|
    ensures var texts := RowTexts(libs, rows);
      RenderRows(libs, rows) == Concat(texts[..k]) + RenderRow(libs, rows[k]) + Concat(texts[k + 1..])
  {
    ConcatAt(RowTexts(libs, rows), k);
  }
}

=== FILE: readme_update.dfy ===
/** The final step of the README updater: the first `<table>…</table>` region is
    replaced by the rendered results table and then the first
    `<details>…</details>` region by the raw output; everything else is kept. */
module ReadmeUpdate {
  import opened Wrappers
  import opened Text
  import ReadmeTable

  /** The match of `/<open>([\s\S]*?)<close>/`, as the start of its opening tag and
      the start of its closing tag: the first `open`, and the first `close` that begins
      behind it; `None` when there is no `open`, or no `close` after the first one. */
  function FindRegion(text: string, open: string, close: string): (r: Option<(nat, nat)>)
    ensures r.Some? ==>
      && OccursAt(text, open, r.value.0)
      && NoneStartIn(text, open, 0, r.value.0)
      && r.value.0 + |open| <= r.value.1
      && OccursAt(text, close, r.value.1)
      && NoneStartIn(text, close, r.value.0 + |open|, r.value.1)
  {
    match IndexOf(text, open, 0)
    case None => None
    case Some(i) =>
      match IndexOf(text, close, i + |open|)
      case None => None
      case Some(j) => Some((i, j))
  }

  /** There is no region only when no opening tag occurs, or none is followed by a closing tag. */
  lemma NoRegion(text: string, open: string, close: string)
    requires FindRegion(text, open, close).None?
    ensures (forall k: nat :: !OccursAt(text, open, k))
      || exists i: nat :: OccursAt(text, open, i) && forall k: nat :: i + |open| <= k ==> !OccursAt(text, close, k)
  {
  }

  /** The region of an opening tag at `i` and a closing tag at `j`, both the first ones. */
  lemma FindRegionOf(text: string, open: string, close: string, i: nat, j: nat)
    requires OccursAt(text, open, i) && NoneStartIn(text, open, 0, i)
    requires i + |open| <= j && OccursAt(text, close, j) && NoneStartIn(text, close, i + |open|, j)
    ensures FindRegion(text, open, close) == Some((i, j))
  {
    IndexOfFinds(text, open, 0, i);
    var from := i + |open|;
    IndexOfFinds(text, close, from, j);
  }

  /** `text.replace(/<open>([\s\S]*?)<close>/, repl)`: the first region, from its
      opening tag to the end of its closing tag, is replaced; the text before and after
      it is kept; without a region the text is unchanged. */
  function ReplaceFirstRegion(text: string, open: string, close: string, repl: string): (r: string)
    ensures FindRegion(text, open, close).None? ==> r == text
    ensures FindRegion(text, open, close).Some? ==>
      var (i, j) := FindRegion(text, open, close).value;
      && |r| == |text| - (j + |close| - i) + |repl|
      && r[..i] == text[..i]
      && r[i..i + |repl|] == repl
      && r[i + |repl|..] == text[j + |close|..]
  {
    match FindRegion(text, open, close)
    case None => text
    case Some((i, j)) =>
      var r := text[..i] + repl + text[j + |close|..];
      assert r[..i] == text[..i];
      assert r[i..i + |repl|] == repl;
      assert r[i + |repl|..] == text[j + |close|..];
      r
  }

  /** When the text is `a`, a region, and `b`, with `a` holding no opening tag and the
      region's body holding no closing tag, exactly the region is replaced. */
  lemma ReplaceRegionBetween(a: string, body: string, b: string, open: string, close: string, repl: string)
    requires 1 <= |open|
    requires NoneStartIn(a + open + body + close + b, open, 0, |a|)
    requires NoneStartIn(a + open + body + close + b, close, |a| + |open|, |a| + |open| + |body|)
    ensures ReplaceFirstRegion(a + open + body + close + b, open, close, repl) == a + repl + b
  {
    var text := a + open + body + close + b;
    assert OccursAt(text, open, |a|) by {
      assert text[|a|..|a| + |open|] == open;
    }
    assert OccursAt(text, close, |a| + |open| + |body|) by {
      assert text[|a| + |open| + |body|..|a| + |open| + |body| + |close|] == close;
    }
    FindRegionOf(text, open, close, |a|, |a| + |open| + |body|);
    assert |a| + |open| + |body| + |close| <= |text|;
    assert text[..|a|] == a;
    assert text[|a| + |open| + |body| + |close|..] == b;
  }

  /** The first row of the README's table, `Test` and then the six column numbers:
      `<tr><th>Test</th><th>1</th>…<th>6</th></tr>`. */
  function HeadingRow(): string {
    HeadingsThrough(6) + "</tr>"
  }

  /** The opening of the heading row and its cells up to the number `n`. */
  function HeadingsThrough(n: nat): string {
    if n == 0 then "<tr>" + ReadmeTable.Wrap("Test", "th")
    else HeadingsThrough(n - 1) + ReadmeTable.Wrap(NatToString(n), "th")
  }

  /** The opening of the heading row and its first numbered cell, spelled out. */
  lemma HeadingsThroughOne()
    ensures HeadingsThrough(1) == "<tr><th>Test</th><th>1</th>"
  {
    assert HeadingsThrough(0) == "<tr><th>Test</th>";
  }

  /** The heading row up to its numbered cell 2, spelled out. */
  lemma HeadingsThroughTwo()
    ensures HeadingsThrough(2) == "<tr><th>Test</th><th>1</th><th>2</th>"
  {
    HeadingsThroughOne();
  }

  /** The heading row up to its numbered cell 3, spelled out. */
  lemma HeadingsThroughThree()
    ensures HeadingsThrough(3) == "<tr><th>Test</th><th>1</th><th>2</th><th>3</th>"
  {
    HeadingsThroughTwo();
  }

  /** The heading row up to its numbered cell 4, spelled out. */
  lemma HeadingsThroughFour()
    ensures HeadingsThrough(4) == "<tr><th>Test</th><th>1</th><th>2</th><th>3</th><th>4</th>"
  {
    HeadingsThroughThree();
  }

  /** The heading row up to its numbered cell 5, spelled out. */
  lemma HeadingsThroughFive()
    ensures HeadingsThrough(5) == "<tr><th>Test</th><th>1</th><th>2</th><th>3</th><th>4</th><th>5</th>"
  {
    HeadingsThroughFour();
  }

  /** The heading row up to its numbered cell 6, spelled out. */
  lemma HeadingsThroughSix()
    ensures HeadingsThrough(6) == "<tr><th>Test</th><th>1</th><th>2</th><th>3</th><th>4</th><th>5</th><th>6</th>"
  {
    HeadingsThroughFive();
  }

  /** The heading row, cell by cell, is the literal row the updater writes. */
  lemma HeadingRowSpelledOut()
    ensures HeadingRow() == "<tr><th>Test</th><th>1</th><th>2</th><th>3</th><th>4</th><th>5</th><th>6</th></tr>"
  {
    HeadingsThroughSix();
  }

  /** `open + head + body + tail + close`: the text opens with `open`, closes with
      `close`, and holds `body` unchanged just before `tail + close`. */
  function Block(open: string, head: string, body: string, tail: string, close: string): (b: string)
    ensures OccursAt(b, open, 0)
    ensures |close| <= |b| && OccursAt(b, close, |b| - |close|)
    ensures |tail| + |close| + |body| <= |b| && b[|b| - |close| - |tail| - |body|..|b| - |close| - |tail|] == body
  {
    var b := open + head + body + tail + close;
    assert b[..|open|] == open;
    assert b[|b| - |close|..] == close;
    assert b[|open| + |head|..|open| + |head| + |body|] == body;
    b
  }

  /** What replaces the table region: the heading row, then the rendered rows. The
      block is itself a `<table>…</table>` text, and the rows stand unchanged just
      before its final `\n</table>`. */
  function TableBlock(heading: string, sub: string): (b: string)
    ensures OccursAt(b, "<table>", 0)
    ensures 8 <= |b| && OccursAt(b, "</table>", |b| - 8)
    ensures 9 + |sub| <= |b| && b[|b| - 9 - |sub|..|b| - 9] == sub
  {
    Block("<table>", "\n" + heading + "\r", sub, "\n", "</table>")
  }

  /** What replaces the details region: the raw lines, joined by line feeds, in a
      fenced block. The block is itself a `<details>…</details>` text, and the joined
      lines stand just before its final fence. */
  function DetailsBlock(summary: string, lines: seq<string>): (b: string)
    ensures OccursAt(b, "<details>", 0)
    ensures 10 <= |b| && OccursAt(b, "</details>", |b| - 10)
    ensures 16 + |Join(lines, '\n')| <= |b| && b[|b| - 16 - |Join(lines, '\n')|..|b| - 16] == Join(lines, '\n')
  {
    var tail, close := "\n\n```\n", "</details>";
    assert |tail| == 6 && |close| == 10;
    Block("<details>", "\n" + ReadmeTable.Wrap(summary, "summary") + tail, Join(lines, '\n'), tail, close)
  }

  /** The raw lines in the details block split back into the lines when none holds a
      line feed: the block is lossless for the lines it is given. */
  lemma DetailsBlockKeepsLines(summary: string, lines: seq<string>)
    requires 1 <= |lines| && forall i :: 0 <= i < |lines| ==> '\n' !in lines[i]
    ensures var b, n := DetailsBlock(summary, lines), |Join(lines, '\n')|;
      16 + n <= |b| && Split(b[|b| - 16 - n..|b| - 16], '\n') == lines
  {
    SplitOfJoin(lines, '\n');
  }

  /** The two `replace` calls: the table region first, then the details region of the result. */
  function ReplaceBlocks(readme: string, table: string, details: string): (r: string)
    ensures FindRegion(readme, "<table>", "</table>").None? && FindRegion(readme, "<details>", "</details>").None? ==>
      r == readme
  {
    var withTable := ReplaceFirstRegion(readme, "<table>", "</table>", table);
    ReplaceFirstRegion(withTable, "<details>", "</details>", details)
  }

  /** The results table the updater writes: the heading row, then every row rendered
      with the README's `libraries` table. */
  function ResultsTable(rows: seq<seq<ReadmeTable.Cell>>): (b: string)
    requires forall i :: 0 <= i < |rows| ==> 1 <= |rows[i]|
    ensures var sub := ReadmeTable.RenderRows(ReadmeTable.LibraryOf, rows);
      9 + |sub| <= |b| && b[|b| - 9 - |sub|..|b| - 9] == sub
  {
    TableBlock(HeadingRow(), ReadmeTable.RenderRows(ReadmeTable.LibraryOf, rows))
  }

  /** The README updater: the results table and the `Raw Output` block put in place;
      without either region nothing changes. */
  function Update(readme: string, rows: seq<seq<ReadmeTable.Cell>>, lines: seq<string>): (r: string)
    requires forall i :: 0 <= i < |rows| ==> 1 <= |rows[i]|
    ensures FindRegion(readme, "<table>", "</table>").None? && FindRegion(readme, "<details>", "</details>").None? ==>
      r == readme
  {
    ReplaceBlocks(readme, ResultsTable(rows), DetailsBlock("Raw Output", lines))
  }

  /** Replacing the first region of one kind and then the first of another, in a
      text of the shape `a open1 t close1 c open2 d close2 e` whose first regions are
      those, replaces exactly those two regions. */
  lemma ReplaceTwoRegions(a: string, t: string, c: string, d: string, e: string,
                          open1: string, close1: string, repl1: string,
                          open2: string, close2: string, repl2: string)
    requires 1 <= |open1| && 1 <= |open2|
    requires var text := a + open1 + t + close1 + (c + open2 + d + close2 + e);
      NoneStartIn(text, open1, 0, |a|) && NoneStartIn(text, close1, |a| + |open1|, |a| + |open1| + |t|)
    requires var mid := a + repl1 + c;
      var text := mid + open2 + d + close2 + e;
      NoneStartIn(text, open2, 0, |mid|) && NoneStartIn(text, close2, |mid| + |open2|, |mid| + |open2| + |d|)
    ensures var text := a + open1 + t + close1 + (c + open2 + d + close2 + e);
      ReplaceFirstRegion(ReplaceFirstRegion(text, open1, close1, repl1), open2, close2, repl2)
        == a + repl1 + c + repl2 + e
  {
    var rest := c + open2 + d + close2 + e;
    ReplaceRegionBetween(a, t, rest, open1, close1, repl1);
    var mid := a + repl1 + c;
    assert a + repl1 + rest == mid + open2 + d + close2 + e;
    ReplaceRegionBetween(mid, d, e, open2, close2, repl2);
  }

  /** A README of the shape `a <table>t</table> c <details>d</details> e`. */
  function Shaped(a: string, t: string, c: string, d: string, e: string): string {
    a + "<table>" + t + "</table>" + (c + "<details>" + d + "</details>" + e)
  }

  /** The regions of `Shaped(a, t, c, d, e)` are the ones the updater replaces: no
      `<table>` in `a` and no `</table>` in `t`, and, once the table region holds
      `table`, no `<details>` before the one after `c` and no `</details>` in `d`. */
  predicate FirstRegions(a: string, t: string, c: string, d: string, e: string, table: string) {
    var text := Shaped(a, t, c, d, e);
    var mid := a + table + c;
    var text2 := mid + "<details>" + d + "</details>" + e;
    && NoneStartIn(text, "<table>", 0, |a|)
    && NoneStartIn(text, "</table>", |a| + |"<table>"|, |a| + |"<table>"| + |t|)
    && NoneStartIn(text2, "<details>", 0, |mid|)
    && NoneStartIn(text2, "</details>", |mid| + |"<details>"|, |mid| + |"<details>"| + |d|)
  }

  /** A README of the shape `a <table>…</table> c <details>…</details> e`, whose
      first regions are those, gets exactly those two regions replaced. */
  lemma UpdateKeepsOutside(a: string, t: string, c: string, d: string, e: string, table: string, details: string)
    requires FirstRegions(a, t, c, d, e, table)
    ensures ReplaceBlocks(Shaped(a, t, c, d, e), table, details) == a + table + c + details + e
  {
    ReplaceTwoRegions(a, t, c, d, e, "<table>", "</table>", table, "<details>", "</details>", details);
  }

  /** The README updater on a README of the shape `a <table>…</table> c <details>…</details> e`,
      whose first regions are those: the results table under the heading row replaces the
      table region, the `Raw Output` block replaces the details region, and `a`, `c` and
      `e` are kept. */
  lemma UpdateReplacesRegions(a: string, t: string, c: string, d: string, e: string,
                              rows: seq<seq<ReadmeTable.Cell>>, lines: seq<string>)
    requires forall i :: 0 <= i < |rows| ==> 1 <= |rows[i]|
    requires FirstRegions(a, t, c, d, e, ResultsTable(rows))
    ensures Update(Shaped(a, t, c, d, e), rows, lines) == a + ResultsTable(rows) + c + DetailsBlock("Raw Output", lines) + e
  {
    UpdateKeepsOutside(a, t, c, d, e, ResultsTable(rows), DetailsBlock("Raw Output", lines));
  }
}

=== FILE: simplux.dfy ===
/** The simplux adapter's `increment` mutation, which writes the gated rule as one
    expression: `count` grows by a conditional one-or-zero term. */
module Simplux {
  import opened Common
  import Gated

  /** `state.dummy += 1; state.count += state.dummy % K === K - 1 ? 1 : 0;` */
  function Increment(s: CounterState, k: nat): (r: CounterState)
    requires 1 <= k
    ensures r.dummy == s.dummy + 1
    ensures s.count <= r.count <= s.count + 1
    ensures r.count == s.count + 1 <==> r.dummy % k == k - 1
  {
    var dummy := s.dummy + 1;
    CounterState(dummy, s.count + (if dummy % k == k - 1 then 1 else 0))
  }

  /** For every state and every K the expression form agrees with the statement form. */
  lemma AgreesWithGatedIncrement(s: CounterState, k: nat)
    requires 1 <= k
    ensures Increment(s, k) == Gated.Increment(s, k)
  {
  }
}

=== FILE: text.dfy ===
/** String helpers shared by the URL codecs and the README formatter:
    decimal rendering of naturals, `parseInt(_, 10)` on unsigned input,
    `String.prototype.split` / `Array.prototype.join` on a one-character
    separator, and substring search. */
module Text {
  import opened Wrappers

  predicate IsDigit(c: char) {
    '0' <= c <= '9'
  }

  predicate AllDigits(s: string) {
    forall i :: 0 <= i < |s| ==> IsDigit(s[i])
  }

  function DigitChar(d: nat): (c: char)
    requires d < 10
    ensures IsDigit(c) && c as int - '0' as int == d
  {
    ('0' as int + d) as char
  }

  /** Decimal rendering of `n`, as a template literal renders a non-negative integer. */
  function NatToString(n: nat): (s: string)
    ensures 1 <= |s| && AllDigits(s)
    ensures |s| > 1 ==> s[0] != '0'
  {
    if n < 10 then [DigitChar(n)] else NatToString(n / 10) + [DigitChar(n % 10)]
  }

  /** The number a string of decimal digits denotes, most significant digit first. */
  function DigitsValue(s: string): nat
    requires AllDigits(s)
  {
    if |s| == 0 then 0 else DigitsValue(s[..|s| - 1]) * 10 + (s[|s| - 1] as int - '0' as int)
  }

  lemma {:induction false} DigitsValueOfNatToString(n: nat)
    ensures DigitsValue(NatToString(n)) == n
  {
    if n >= 10 {
      var s := NatToString(n);
      assert s[..|s| - 1] == NatToString(n / 10);
      DigitsValueOfNatToString(n / 10);
    }
  }

  /** Length of the run of decimal digits that starts `s`. */
  function DigitRun(s: string): (k: nat)
    ensures k <= |s| && AllDigits(s[..k])
    ensures k < |s| ==> !IsDigit(s[k])
  {
    if |s| == 0 || !IsDigit(s[0]) then 0 else 1 + DigitRun(s[1..])
  }

  /** `parseInt(s, 10)` for input without sign or leading white space: the value of
      the leading digit run, and `None` (NaN) when `s` does not start with a digit. */
  function ParseInt(s: string): (r: Option<nat>)
    ensures r.None? <==> |s| == 0 || !IsDigit(s[0])
  {
    var k := DigitRun(s);
    if k == 0 then None else Some(DigitsValue(s[..k]))
  }

  /** `parseInt` reads a digit string and stops at the first character that is not a digit. */
  lemma {:induction false} ParseIntStopsAtNonDigit(d: string, t: string)
    requires 1 <= |d| && AllDigits(d)
    requires |t| == 0 || !IsDigit(t[0])
    ensures ParseInt(d + t) == Some(DigitsValue(d))
  {
    DigitRunOfDigits(d, t);
    assert (d + t)[..|d|] == d;
  }

  lemma {:induction false} DigitRunOfDigits(d: string, t: string)
    requires AllDigits(d)
    requires |t| == 0 || !IsDigit(t[0])
    ensures DigitRun(d + t) == |d|
  {
    if |d| > 0 {
      assert (d + t)[1..] == d[1..] + t;
      DigitRunOfDigits(d[1..], t);
    }
  }

  /** Decimal rendering followed by `parseInt` gives the number back. */
  lemma ParseIntOfNatToString(n: nat)
    ensures ParseInt(NatToString(n)) == Some(n)
  {
    ParseIntStopsAtNonDigit(NatToString(n), "");
    assert NatToString(n) + "" == NatToString(n);
    DigitsValueOfNatToString(n);
  }

  /** `parts.join(sep)`. */
  function Join(parts: seq<string>, sep: char): string {
    if |parts| == 0 then ""
    else if |parts| == 1 then parts[0]
    else parts[0] + [sep] + Join(parts[1..], sep)
  }

  /** `s.split(sep)`: the maximal pieces between separators, in order; joining them
      with `sep` gives `s` back, and an empty string splits into one empty piece. */
  function Split(s: string, sep: char): (parts: seq<string>)
    ensures 1 <= |parts|
    ensures forall i :: 0 <= i < |parts| ==> sep !in parts[i]
    ensures Join(parts, sep) == s
  {
    if |s| == 0 then [""]
    else
      var rest := Split(s[1..], sep);
      if s[0] == sep then
        assert ([""] + rest)[1..] == rest;
        [""] + rest
      else
        var parts := [[s[0]] + rest[0]] + rest[1..];
        assert parts[1..] == rest[1..];
        assert s == [s[0]] + s[1..];
        parts
  }

  /** A separator-free prefix followed by the separator becomes the first piece. */
  lemma {:induction false} SplitCons(a: string, sep: char, rest: string)
    requires sep !in a
    ensures Split(a + [sep] + rest, sep) == [a] + Split(rest, sep)
  {
    if |a| > 0 {
      assert (a + [sep] + rest)[1..] == a[1..] + [sep] + rest;
      SplitCons(a[1..], sep, rest);
      assert [a[0]] + a[1..] == a;
    } else {
      assert (a + [sep] + rest)[1..] == rest;
    }
  }

  /** Two separator-free fields followed by anything split into those two fields first. */
  lemma SplitTwoFields(a: string, b: string, tail: string, sep: char)
    requires sep !in a && sep !in b
    ensures var parts := Split(a + [sep] + b + [sep] + tail, sep);
      |parts| >= 2 && parts[0] == a && parts[1] == b
  {
    var rest := b + [sep] + tail;
    assert a + [sep] + b + [sep] + tail == a + [sep] + rest;
    SplitCons(a, sep, rest);
    SplitCons(b, sep, tail);
    assert Split(rest, sep)[0] == b;
  }

  /** A separator-free string is a single piece. */
  lemma {:induction false} SplitSingle(a: string, sep: char)
    requires sep !in a
    ensures Split(a, sep) == [a]
  {
    if |a| > 0 {
      SplitSingle(a[1..], sep);
      assert [a[0]] + a[1..] == a;
    }
  }

  /** Splitting undoes joining when no piece holds the separator. */
  lemma {:induction false} SplitOfJoin(parts: seq<string>, sep: char)
    requires 1 <= |parts|
    requires forall i :: 0 <= i < |parts| ==> sep !in parts[i]
    ensures Split(Join(parts, sep), sep) == parts
  {
    if |parts| == 1 {
      SplitSingle(parts[0], sep);
    } else {
      SplitOfJoin(parts[1..], sep);
      SplitCons(parts[0], sep, Join(parts[1..], sep));
      assert [parts[0]] + parts[1..] == parts;
    }
  }

  /** `pat` occurs in `text` starting at index `k`. */
  predicate OccursAt(text: string, pat: string, k: nat) {
    k + |pat| <= |text| && text[k..k + |pat|] == pat
  }

  /** No occurrence of `pat` in `text` starts in `[lo, hi)`. */
  predicate NoneStartIn(text: string, pat: string, lo: nat, hi: nat) {
    forall k: nat :: lo <= k < hi ==> !OccursAt(text, pat, k)
  }

  /** The first occurrence of `pat` at or after `from`. This is the literal-tag search
      the README updater's lazy regexes `/<table>([\s\S]*?)<\/table>/` and
      `/<details>([\s\S]*?)<\/details>/` perform: first the opening tag, then the first
      closing tag after it. */
  function IndexOf(text: string, pat: string, from: nat): (r: Option<nat>)
    ensures r.Some? ==> from <= r.value && OccursAt(text, pat, r.value)
    ensures forall k :: from <= k && (r.None? || k < r.value) ==> !OccursAt(text, pat, k)
    decreases |text| - from
  {
    if from + |pat| > |text| then None
    else if text[from..from + |pat|] == pat then Some(from)
    else IndexOf(text, pat, from + 1)
  }

  /** The search from `from` finds `k` when `pat` occurs at `k` and at no earlier start. */
  lemma IndexOfFinds(text: string, pat: string, from: nat, k: nat)
    requires from <= k && OccursAt(text, pat, k) && NoneStartIn(text, pat, from, k)
    ensures IndexOf(text, pat, from) == Some(k)
  {
  }

  /** Index of the first `c` in `s`, or `|s|` when there is none. */
  function CharIndex(s: string, c: char): (k: nat)
    ensures k <= |s| && c !in s[..k]
    ensures k < |s| ==> s[k] == c
  {
    if |s| == 0 || s[0] == c then 0 else 1 + CharIndex(s[1..], c)
  }

  /** The first `c` of `a + [c] + b` is the one after `a` when `a` holds none. */
  lemma {:induction false} CharIndexAfterPrefix(a: string, c: char, b: string)
    requires c !in a
    ensures CharIndex(a + [c] + b, c) == |a|
  {
    if |a| > 0 {
      assert (a + [c] + b)[1..] == a[1..] + [c] + b;
      CharIndexAfterPrefix(a[1..], c, b);
    }
  }
}

=== FILE: wrappers.dfy ===
/** Optional values: `None` stands for JavaScript's `undefined`, `null` or `NaN`
    wherever the modelled code can produce one of those instead of a value. */
module Wrappers {

  datatype Option<+T> = None | Some(value: T) {

    /** The carried value, or `default` when there is none. */
    function GetOr(default: T): T {
      match this
      case Some(v) => v
      case None => default
    }
  }
}
